=== FILE: README.md ===
# camela-pos store ledger, modelled in Dafny

camela-pos is a point-of-sale web application for a small shop. Its pages
keep four tables:
- products, with buy price, sell price and stock;
- sales, with total, cost and profit;
- sale items;
- expenses.

This project models, as pure functions over one immutable `Ledger` value,
what the seven core pages compute and store:

- **Stock page** (`catalog.dfy`):
  - registering and editing a product;
  - adding stock, which also records a "Beli Produk" purchase expense;
  - deleting a product;
  - searching by name.
- **Sales page** (`checkout.dfy`):
  - the cart: adding, merging and removing lines;
  - checkout: one sale, one sale item per cart line, and stock decrements;
  - the customer search.
- **Expense page** (`expense_journal.dfy`): the expense dialog, its defaults
  and save condition, appending an expense, and the search.
- **Report page** (`report.dfy`, `csv.dfy`):
  - the inclusive string-date range filters;
  - the seven report figures;
  - the export dialog's empty-selection guard;
  - the CSV text of an export.
- **Dashboard** (`dashboard.dfy`, `calendar.dfy`):
  - all-time totals and `selisih` (sales minus expenses);
  - the seven-day sales trend, computed from a calendar date for "today";
  - the two-slice expense composition.
- **Reset-password page** (`email_check.dfy`):
  - the meaning of the email regular expression as a predicate;
  - a scanning check proved to decide exactly that predicate;
  - what the submit handler does with the value it is given.
- **Login page** (`login.dfy`): credentials derived from the stored store
  profile, and the login comparison.

Shared pieces:
- `ledger.dfy`: the tables, lookups, fresh ids and the ledger's consistency
  invariant `Ledger.Valid`:
  - unique ids;
  - known expense categories;
  - profit = total − cost;
  - subtotal = sell price × qty;
  - every item owned by a sale;
  - each sale's total and cost equal to the sums over its items.
- `text.dfy`: the JavaScript string operations the pages use.
- `seqs.dfy`: sums and filters over sequences.
- `wrappers.dfy`: `Option` and `Result`.

Every mutation of the ledger is one atomic transition. The values the
database or the browser supplies are parameters:
- a sale's `created_at` is `now`;
- an automatic expense's `expense_date` is `today`;
- the dashboard's current date is `today`.

Each text box holding a number is an `Option<int>`. `None` is an empty box,
which `Number("")` reads as 0. A new row's id is one more than the largest
id in its table, and is proved fresh.

Checkout stores the customer name "Umum" when the name box is empty
(`Checkout.CustomerOrDefault`).

Properties the model exposes rather than hides:
- **The stock check at "add" is per add, not cumulative.** Two adds of `q`
  units of a product with `q <= stock < 2q` both pass
  (`Checkout.PerAddStockCheck`). Checkout then drives the stock negative
  (`Checkout.CheckoutCanOversell`).
- **The report's net profit is revenue minus total expense.** It is not gross
  profit minus expense (`Report.SummaryOfValidLedger`).
- **An expense whose category is neither known name is counted nowhere**
  (`Report.UnknownCategoryIgnored`).

## Model

| member | source | states |
|---|---|---|
| Ledger.CategoryName | src/pages/Pengeluaran.tsx:141-144 | the select's "Operasional" option stores "Operasional" and its "Beli Produk" option stores "Beli Produk", and no other name |
| Ledger.FindProduct | src/pages/Penjualan.tsx:54 | the lookup fails exactly when no product has the id; a found product has that id and is in the list |
| Ledger.FindUniqueProduct | src/pages/Penjualan.tsx:54 | with unique ids the lookup returns the one row holding the id |
| Catalog.SaveProduct | src/pages/StokBarang.tsx:52-64 | registering appends one product with a fresh id, the form's name and prices and stock 0; editing keeps every id and stock, rewrites name and prices of the edited product only, leaves other products and all other tables unchanged |
| Catalog.CanSaveProduct | src/pages/StokBarang.tsx:226 | the save button is enabled exactly when the name box is non-empty; empty price boxes do not block it |
| Catalog.SavedProductNamed | src/pages/StokBarang.tsx:226 | a product saved from an enabled dialog, registered or edited, has a non-empty name |
| Catalog.SaveProductPreservesValid | src/pages/StokBarang.tsx:52-64 | saving a product keeps the ledger consistent |
| Catalog.AddStock | src/pages/StokBarang.tsx:74-91 | an unknown product or a quantity <= 0 is refused (the mutation throws) and nothing changes; otherwise exactly the product's rows get stock + qty and exactly one expense is appended: "Beli Produk: name", buy price × qty, category "Beli Produk", note "Tambah qty unit", fresh id |
| Catalog.CanAddStock | src/pages/StokBarang.tsx:316-318 | the add-stock button is enabled when a product is chosen and the quantity box holds a positive number |
| Catalog.PurchaseExpense | src/pages/StokBarang.tsx:84-89 | the automatic expense has the given fresh id, today's date, amount buy price × qty and category "Beli Produk" |
| Catalog.AddStockPreservesValid | src/pages/StokBarang.tsx:74-91 | adding stock keeps the ledger consistent |
| Catalog.CanAddStockAccepted | src/pages/StokBarang.tsx:318 | with the add-stock button enabled the quantity refusal cannot happen, and adding succeeds iff the chosen product exists |
| Catalog.AddStockAt | src/pages/StokBarang.tsx:76-90 | one stock addition seen from the product's index: stock + q and one purchase expense of buy price × q |
| Catalog.AddStockTwice | src/pages/StokBarang.tsx:82-90 | two additions of q1 then q2 give stock + q1 + q2 and purchase amounts summing to buy price × (q1 + q2) |
| Catalog.DeleteProduct | src/pages/StokBarang.tsx:102-105 | exactly the products with the id disappear, the rest keep their order and multiplicity, sales, items and expenses are untouched |
| Catalog.DeleteProductPreservesValid | src/pages/StokBarang.tsx:104 | deleting a product keeps the ledger consistent, since history does not depend on product rows |
| Catalog.SearchProducts | src/pages/StokBarang.tsx:128-130 | exactly the products whose lower-cased name contains the lower-cased query, each as often as before, in list order |
| Catalog.SearchProductsEmptyQuery | src/pages/StokBarang.tsx:128-130 | an empty search lists every product |
| Checkout.AddToCart | src/pages/Penjualan.tsx:53-69 | an unknown product does nothing; qty <= 0 or qty > stock is refused with "Qty tidak valid atau stok tidak cukup"; otherwise an existing line of the product grows by qty and no other line changes, or a new line with the product's name and prices is appended |
| Checkout.AddToCartRefused | src/pages/Penjualan.tsx:54-60 | in each of the three refusal cases the cart is unchanged |
| Checkout.AddToCartDistinct | src/pages/Penjualan.tsx:61-66 | adding keeps at most one line per product |
| Checkout.AddToCartQty | src/pages/Penjualan.tsx:61-66 | after an add the product's cart quantity grew by qty and every other product's is unchanged |
| Checkout.CartQtyOfLine | src/pages/Penjualan.tsx:61-66 | in a cart with one line per product, a product's quantity is its line's |
| Checkout.PerAddStockCheck | src/pages/Penjualan.tsx:57-63 | two adds of q with q <= stock < 2q both pass and leave a line of 2q units, above the stock |
| Checkout.RemoveFromCart | src/pages/Penjualan.tsx:71 | exactly the lines of the product are dropped; the others keep order and multiplicity |
| Checkout.RemoveFromCartDistinct | src/pages/Penjualan.tsx:71 | removing a product keeps at most one line per product |
| Checkout.RemoveUndoesNewLine | src/pages/Penjualan.tsx:65-71 | removing a product just added as a new line restores the cart |
| Checkout.CartTotal | src/pages/Penjualan.tsx:73 | the sum over the cart lines of sell price × qty; Checkout.ItemsOfCartSum ties it to the recorded items |
| Checkout.CartCost | src/pages/Penjualan.tsx:74 | the sum over the cart lines of buy price × qty; Checkout.ItemsOfCartSum ties it to the recorded items |
| Checkout.CustomerOrDefault | src/pages/Penjualan.tsx:84 | a recorded sale always names a customer: the typed name, or "Umum" when the box is empty |
| Checkout.SaleItemsOf | src/pages/Penjualan.tsx:90-98 | one sale item per cart line |
| Checkout.ItemsOfCartSum | src/pages/Penjualan.tsx:73-98 | the new items' subtotals sum to the cart total and their buy-price costs to the cart cost |
| Checkout.StepStock | src/pages/Penjualan.tsx:103-105 | one line's update keeps ids, names and prices and touches only that product's rows |
| Checkout.DecrementStock | src/pages/Penjualan.tsx:101-107 | the stock updates keep ids, names and prices and leave products not in the cart unchanged |
| Checkout.SubmitSale | src/pages/Penjualan.tsx:76-108 | checkout appends one sale with a fresh id, customer name or "Umum", total = Σ sell×qty, cost = Σ buy×qty, profit = total − cost, and one item per line with the sale id and subtotal sell×qty; expenses are untouched |
| Checkout.SubmitSaleSubtotals | src/pages/Penjualan.tsx:76-99 | the new sale's items add up to its total and cost |
| Checkout.DecrementStockAt | src/pages/Penjualan.tsx:101-107 | a carted product's stock becomes its stock before checkout minus its cart quantity |
| Checkout.SubmitSaleStock | src/pages/Penjualan.tsx:101-107 | every product's stock decreases by exactly its cart quantity (0 when not carted), with no non-negativity check |
| Checkout.CheckoutCanOversell | src/pages/Penjualan.tsx:57-107 | the per-add check lets a checkout drive a stock below zero |
| Checkout.AppendSaleOwnership | src/pages/Penjualan.tsx:82-99 | after checkout every sale item belongs to a recorded sale |
| Checkout.AppendSaleTotalsAt | src/pages/Penjualan.tsx:82-99 | after checkout every sale's total and cost still equal the sums over its items |
| Checkout.AppendSalePreservesValid | src/pages/Penjualan.tsx:76-99 | recording a balanced sale with its own items keeps the ledger consistent |
| Checkout.SubmitSalePreservesValid | src/pages/Penjualan.tsx:76-108 | checkout keeps the ledger consistent |
| Checkout.SubmittedSaleHasItems | src/pages/Penjualan.tsx:242 | a checkout from the enabled button records at least one item belonging to the new sale |
| Checkout.CanSubmitSale | src/pages/Penjualan.tsx:242 | the checkout button is enabled exactly when the cart has a line |
| Checkout.SearchSales | src/pages/Penjualan.tsx:119-121 | exactly the sales whose lower-cased customer name contains the lower-cased query, in list order |
| ExpenseJournal.NewExpenseForm | src/pages/Pengeluaran.tsx:25-31 | the form at mount and after each save (:54) is empty, with category "Operasional" and the date of that moment; opening the dialog does not reset it |
| ExpenseJournal.NewExpenseFormBlocked | src/pages/Pengeluaran.tsx:153 | a form fresh from mount or from a save cannot be saved |
| ExpenseJournal.CanSaveExpense | src/pages/Pengeluaran.tsx:153 | the save button is enabled when the name box and the amount box are non-empty; any amount, zero or negative, passes |
| ExpenseJournal.AddExpense | src/pages/Pengeluaran.tsx:41-50 | one expense is appended with a fresh id and the form's name, amount (no sign check), category, note and date; all else unchanged |
| ExpenseJournal.AddExpensePreservesValid | src/pages/Pengeluaran.tsx:41-50 | adding an expense keeps the ledger consistent |
| ExpenseJournal.SearchExpenses | src/pages/Pengeluaran.tsx:59-61 | exactly the expenses whose lower-cased name contains the lower-cased query, in list order |
| ExpenseJournal.SearchExpensesEmptyQuery | src/pages/Pengeluaran.tsx:59-61 | an empty search lists every expense |
| Report.ReportedSales | src/pages/Laporan.tsx:66-69 | a sale is reported iff start <= (created_at before "T") <= end, as strings; order and multiplicity kept |
| Report.ReportedExpenses | src/pages/Laporan.tsx:71-73 | an expense is reported iff start <= expense_date <= end |
| Report.SaleDay | src/pages/Laporan.tsx:67 | a sale's day is the longest prefix of created_at without "T", which ends at the first "T" |
| Report.SaleInRange | src/pages/Laporan.tsx:66-69 | a sale is in range when its day lies between start and end inclusive, as strings |
| Report.ExpenseInRange | src/pages/Laporan.tsx:71-73 | an expense is in range when its expense_date lies between start and end inclusive, as strings |
| Report.Summarize | src/pages/Laporan.tsx:75-81 | each figure equals an independent one-pass sum over the whole table restricted to the range; the category sums count only the exact names; total expense = ops + purchase; net profit = revenue − total expense |
| Report.SalesSums | src/pages/Laporan.tsx:75-77 | filter-then-sum equals the masked sum for revenue, cost and gross profit |
| Report.CategorySumMasked | src/pages/Dashboard.tsx:44-45 | filtering by category then summing equals the one-pass sum of the amounts of that category |
| Report.CategorySumInRange | src/pages/Laporan.tsx:78-79 | the category sum of the filtered expenses equals the masked sum over all expenses |
| Report.GrossProfitBalanced | src/pages/Laporan.tsx:75-77 | when every sale has profit = total − cost, gross profit = revenue − cost |
| Report.SummaryOfValidLedger | src/pages/Laporan.tsx:75-81 | for a consistent ledger: gross profit = revenue − cost, net profit = gross profit + cost − total expense, and total expense is the sum of all expenses of the range |
| Report.KnownCategoriesTotal | src/pages/Laporan.tsx:78-80 | when all categories are known, total expense is the sum of every expense in range |
| Report.UnknownCategoryIgnored | src/pages/Laporan.tsx:78-80 | an expense with any other category changes no figure |
| Report.InRangeOrdered | src/pages/Laporan.tsx:66-73 | only a range with start <= end can hold a date |
| Report.SingleDayRange | src/pages/Laporan.tsx:66-69 | a range whose start and end are the same day holds exactly that day |
| Report.ReversedRangeIsZero | src/pages/Laporan.tsx:66-81 | when start > end nothing is reported and every figure is 0 |
| Report.Toggle | src/pages/Laporan.tsx:83-85 | toggling flips exactly one export box |
| Report.ToggleTwice | src/pages/Laporan.tsx:83-85 | toggling twice restores the options |
| Report.KeyNameInjective | src/pages/Laporan.tsx:27-32 | different boxes name different data sets |
| Report.CheckedBoxes | src/pages/Laporan.tsx:99 | exactly the checked boxes, each once, in the order of the dialog's state object (stok, penjualan, pengeluaran, keuangan) |
| Report.SelectedKeys | src/pages/Laporan.tsx:99 | the i-th name is the name of the i-th checked box in dialog order, so the list holds each checked data set once and nothing else; empty iff none is checked |
| Report.NamesOfBoxes | src/pages/Laporan.tsx:99 | naming distinct ordered boxes gives distinct names, exactly those of the checked boxes |
| Report.HandleExport | src/pages/Laporan.tsx:98-103 | with no box checked the export stops with "Pilih minimal satu data untuk di-export"; otherwise it proceeds with the checked data sets' names, each once, in dialog order, as many as boxes are checked |
| Report.SingleExport | src/pages/Laporan.tsx:98-103 | checking one box of a fresh dialog exports exactly that data set |
| Csv.EscapeQuotes | src/pages/Laporan.tsx:88 | escaping keeps the cell's characters and never shortens it |
| Csv.EncodeRow | src/pages/Laporan.tsx:88 | a data line: each cell quoted with its quotes doubled, joined by commas; Csv.RowRoundTrip reads it back |
| Csv.EncodeCsv | src/pages/Laporan.tsx:88 | the header line joined by commas, then one line per row, joined by newlines; Csv.CsvLines splits it back |
| Csv.QuoteCell | src/pages/Laporan.tsx:88 | a data cell starts and ends with a double quote |
| Csv.UnquoteEscaped | src/pages/Laporan.tsx:88 | reading a quoted cell undoes the quote doubling |
| Csv.ParseCellsEncoded | src/pages/Laporan.tsx:88 | every non-empty row is read back from its encoded line |
| Csv.RowRoundTrip | src/pages/Laporan.tsx:88 | every row is read back from its encoded line |
| Csv.EncodeRowOneLine | src/pages/Laporan.tsx:88 | a row whose cells hold no newline encodes to one line |
| Csv.CsvLines | src/pages/Laporan.tsx:88 | without newlines in headers and cells the file has 1 + rows lines: the headers joined by commas unquoted, then each row's line, which reads back as that row |
| Text.Contains | src/pages/Penjualan.tsx:120 | `includes` holds iff the query occurs at some index |
| Text.EmptyQueryMatches | src/pages/StokBarang.tsx:128-130 | the empty query matches every name |
| Text.RemoveWhitespace | src/pages/Login.tsx:44 | the result has no whitespace and is a subsequence of the input holding every non-whitespace character as often as the input does |
| Text.BeforeT | src/pages/Laporan.tsx:67 | `split("T")[0]` is the longest prefix without "T" |
| Text.LexLeTransitive | src/pages/Laporan.tsx:68 | the string order used by the range filter is transitive |
| Text.SplitJoin | src/pages/Laporan.tsx:88 | splitting a join on its separator gives the parts back when no part holds it |
| Text.NatToString | src/pages/StokBarang.tsx:89 | the decimal spelling is non-empty, all digits, reads back as the number, and has no leading zero ("0" only for 0) |
| Calendar.PrevDay | src/pages/Dashboard.tsx:53-54 | the day before a valid date is a valid, earlier date |
| Calendar.NextOfPrev | src/pages/Dashboard.tsx:53-54 | stepping back a day and forward again returns the same date |
| Calendar.PrevDayIsImmediate | src/pages/Dashboard.tsx:53-54 | no valid date lies between a date and the day before it |
| Calendar.DaysBack | src/pages/Dashboard.tsx:52-54 | going back up to six days stays valid and crosses at most one year boundary |
| Calendar.DaysBackOrdered | src/pages/Dashboard.tsx:52-54 | going further back gives an earlier date |
| Calendar.Format | src/pages/Dashboard.tsx:55 | the spelling is ten characters, digits with dashes at 4 and 7 |
| Calendar.ParseFormat | src/pages/Dashboard.tsx:55 | reading the spelling back gives the date |
| Calendar.FormatInjective | src/pages/Dashboard.tsx:55 | different dates are spelled differently |
| Calendar.Week | src/pages/Dashboard.tsx:52-54 | seven valid dates, six days ago first, today last, each the day before the next |
| Calendar.WeekIncreasing | src/pages/Dashboard.tsx:52-54 | the seven dates are strictly increasing |
| Calendar.WeekStrings | src/pages/Dashboard.tsx:52-55 | seven ten-character day strings; string i is the day 6 − i days before today, so six days ago first and today last |
| Calendar.WeekStringsDistinct | src/pages/Dashboard.tsx:52-58 | the seven day strings are distinct |
| Dashboard.Totals | src/pages/Dashboard.tsx:42-47 | total sales and total profit are one-pass sums over every sale, the two expense figures one-pass sums of the amounts of each category, with no date filter; a table not yet loaded counts 0; total expenses = ops + purchase; selisih = total sales − total expenses |
| Dashboard.EverySaleCounts | src/pages/Dashboard.tsx:42-47 | every sale counts whatever its date: one more sale raises total sales and selisih by its total |
| Dashboard.TotalsMatchReport | src/pages/Dashboard.tsx:42-47 | when all rows fall in a report range, the dashboard shows the report's revenue, gross profit, category sums, and net profit as selisih |
| Dashboard.WeeklyTrend | src/pages/Dashboard.tsx:50-61 | seven bars, bar i for the day 6 − i days before today (six days ago first, today last), each the total of the sales whose created_at starts with its day string; 0 before sales load |
| Dashboard.DayBucket | src/pages/Dashboard.tsx:57 | a bar's total equals the one-pass sum of the totals of the sales whose created_at starts with the day string |
| Dashboard.OneBucketPerSale | src/pages/Dashboard.tsx:52-58 | no sale falls in two bars |
| Dashboard.BucketsPartition | src/pages/Dashboard.tsx:57 | bars over distinct same-length day strings add up to the total of the sales on any of those days |
| Dashboard.WeekTotalIsWindowTotal | src/pages/Dashboard.tsx:50-61 | the seven bars add up to the total of the sales made in the window |
| Dashboard.PieData | src/pages/Dashboard.tsx:63-66 | two slices: "Operasional" with the operational total, then "Beli Produk" with the purchase total, adding up to total expenses |
| EmailCheck.PatternIsWellFormed | src/pages/ResetPassword.tsx:23 | a match has no whitespace, exactly one "@" not in first place, and a dot strictly inside the domain |
| EmailCheck.WellFormedIsPattern | src/pages/ResetPassword.tsx:23 | every such string matches the expression |
| EmailCheck.PatternIffWellFormed | src/pages/ResetPassword.tsx:23 | both directions together |
| EmailCheck.PlainSlice | src/pages/ResetPassword.tsx:23 | each run between the separators is a run of the `[^\s@]` class |
| EmailCheck.IsValidEmail | src/pages/ResetPassword.tsx:23-24 | the scan accepts exactly the strings the expression matches |
| EmailCheck.WhitespaceRejected | src/pages/ResetPassword.tsx:23 | any whitespace anywhere rejects |
| EmailCheck.AtCountRejected | src/pages/ResetPassword.tsx:23 | zero or two or more "@" reject |
| EmailCheck.Accepted | src/pages/ResetPassword.tsx:23 | "a@b.c" is accepted |
| EmailCheck.TrailingDotRejected | src/pages/ResetPassword.tsx:23 | "a@b." is rejected |
| EmailCheck.LeadingDotRejected | src/pages/ResetPassword.tsx:23 | "a@.b" is rejected |
| EmailCheck.HandleReset | src/pages/ResetPassword.tsx:19-35 | on the value it is given, the submit handler: a valid address shows success with no error; an invalid one sets "Format email tidak valid" and no success |
| Login.UsernameFromName | src/pages/Login.tsx:44 | the derived username has no whitespace, is a subsequence of the lower-cased name, and keeps every non-whitespace character of it as often as it occurs |
| Login.CredentialsOf | src/pages/Login.tsx:35-47 | "camela" unless the profile has a name and a phone, then the squeezed lower-case name; password "321" always; an unreadable profile gives "Terjadi kesalahan saat login" |
| Login.HandleLogin | src/pages/Login.tsx:29-65 | on the values it is given, the submit handler: login succeeds iff both entered values equal the expected credentials; otherwise "Email atau password salah", or the generic error for an unreadable profile |
| Login.OnlyDefaultPassword | src/pages/Login.tsx:38-50 | only the password "321" ever logs in |
| Login.DefaultCredentialsLogin | src/pages/Login.tsx:37-50 | without a complete profile exactly "camela" / "321" logs in |
| Login.UsernameIsLowerCase | src/pages/Login.tsx:44 | the derived username is unchanged by lower-casing |
| Login.NameAsTypedRefused | src/pages/Login.tsx:43-61 | a profile name containing whitespace, typed as shown, is refused, while its squeezed lower-case form logs in |

## Left out

- Database access, React Query caching and component state. Each mutation is
  one atomic transition. The source issues sequential awaits with no
  rollback and ignores their errors, so partial failures and concurrent
  cashiers are not modelled.
- The failed-insert branch of checkout (`if (!sale) throw`). The sale insert
  always succeeds in the model.
- Database-generated values: uuids become `nat` ids, one more than the table's
  largest. `created_at` and the automatic expense date are parameters.
  Sale-item ids are not modelled.
- Query ordering (`order("name")`, `order("created_at")`). Tables are kept in
  insertion order. With unique ids this does not affect lookups.
- PDF export, the Blob/URL download, the byte-order mark and file names. Only
  the CSV text is modelled, not which columns each of the four exports
  writes.
- Clock and time zone: `new Date()`, UTC truncation by `toISOString`, the
  report's default first and last day, and the `Intl` weekday labels. Each
  trend bar carries its day string instead of the label.
- Calendar.WeekStringsDistinct and Dashboard.OneBucketPerSale: hold for the
  model's whole-day steps back from today. The page steps back with local-time
  `setDate` and then cuts the UTC `toISOString`. Across a daylight-saving change
  one day string can repeat, so a sale would count in two bars. The model
  assumes a time zone without daylight saving, as Indonesia's zones are.
- Csv.CsvLines: requires headers and cells without a newline. An expense note
  typed in a multi-line text box can hold one, and the file then has more lines
  than rows; Csv.RowRoundTrip still reads every row back from its own encoding.
- Dashboard.WeeklyTrend: requires a date for today from year 1 to 9999.
  Dates are modelled for years 0 to 9999, which `toISOString` writes with four
  digits; later years take a sign and six digits. Year 0 is excluded because
  `Calendar.DaysBack` may step six days back into year -1, which the model's
  dates do not represent.
- `formatRupiah` and `formatDate`. These are not part of this model.
- JavaScript `Number()` parsing (fractions, NaN). A filled numeric box is an
  integer.
- JavaScript numbers are doubles; the model's are unbounded integers. Sums
  (`reduce` in the report and the dashboard) and products (`sell_price * qty`
  at checkout, `buy_price * qty` when adding stock) above 2^53 round in the
  source and are exact here. `${qty}` in the purchase note is written in
  exponent form from 1e21 up, while Text.NatToString always writes plain
  digits.
- Text.LowerChar: maps only the ASCII letters A-Z, not the full Unicode case
  mapping of `toLowerCase`.
- Text.LexLe: compares code points. JavaScript compares UTF-16 code units,
  which differ only for characters outside the Basic Multilingual Plane.
- Local storage writes, the redirect after login, the logo on the login page,
  and the store-profile page that writes the profile.
- The login page's handling of a profile whose name or phone is not a string.
  A missing field reads as "".
- The browser's form validation before a submit handler runs. Both login
  boxes and the reset box are `required` (Login.tsx:105, :121;
  ResetPassword.tsx:101), and the reset box is `type="email"`
  (ResetPassword.tsx:96). The browser refuses an empty box, refuses a reset
  value outside the HTML email grammar, and trims the reset value, so
  Login.HandleLogin and EmailCheck.HandleReset describe the handlers on values
  that may never reach them, such as the empty username a whitespace-only
  profile name yields.
- The reset page's simulated two-second delay, the loading flag, and its
  unreachable catch branch.
- Features with no code in these pages: per-item discount, stock correction,
  deleting or editing sales and expenses, top-product ranking and stock
  valuation.

=== FILE: calendar.dfy ===
/** Calendar dates and their `YYYY-MM-DD` spelling, enough to compute the
    dashboard's seven-day window: `d.setDate(d.getDate() - i)` followed by
    `d.toISOString().split("T")[0]`, for i from 6 down to 0. */
module Calendar {
  import Text

  /** A proleptic Gregorian date, as `toISOString` spells it. */
  datatype Date = Date(year: int, month: int, day: int)

  predicate IsLeapYear(y: int) {
    (y % 4 == 0 && y % 100 != 0) || y % 400 == 0
  }

  function DaysInMonth(y: int, m: int): int
    requires 1 <= m <= 12
  {
    if m == 2 then (if IsLeapYear(y) then 29 else 28)
    else if m == 4 || m == 6 || m == 9 || m == 11 then 30
    else 31
  }

  /** Dates whose year `toISOString` writes with four digits. */
  predicate Valid(d: Date) {
    && 0 <= d.year <= 9999
    && 1 <= d.month <= 12
    && 1 <= d.day <= DaysInMonth(d.year, d.month)
  }

  /** Strict chronological order. */
  predicate Before(a: Date, b: Date) {
    || a.year < b.year
    || (a.year == b.year && a.month < b.month)
    || (a.year == b.year && a.month == b.month && a.day < b.day)
  }

  /** The day before `d`. */
  function PrevDay(d: Date): (r: Date)
    requires Valid(d) && d != Date(0, 1, 1)
    ensures Valid(r)
    ensures Before(r, d)
  {
    if d.day > 1 then Date(d.year, d.month, d.day - 1)
    else if d.month > 1 then Date(d.year, d.month - 1, DaysInMonth(d.year, d.month - 1))
    else Date(d.year - 1, 12, 31)
  }

  /** The day after `d`. */
  function NextDay(d: Date): (r: Date)
    requires Valid(d) && d != Date(9999, 12, 31)
    ensures Valid(r)
    ensures Before(d, r)
  {
    if d.day < DaysInMonth(d.year, d.month) then Date(d.year, d.month, d.day + 1)
    else if d.month < 12 then Date(d.year, d.month + 1, 1)
    else Date(d.year + 1, 1, 1)
  }

  /** Stepping back a day and forward again returns to the same date. */
  lemma NextOfPrev(d: Date)
    requires Valid(d) && d != Date(0, 1, 1)
    ensures PrevDay(d) != Date(9999, 12, 31)
    ensures NextDay(PrevDay(d)) == d
  {
  }

  /** No valid date lies strictly between `PrevDay(d)` and `d`. */
  lemma PrevDayIsImmediate(d: Date, x: Date)
    requires Valid(d) && d != Date(0, 1, 1)
    requires Valid(x) && Before(x, d)
    ensures x == PrevDay(d) || Before(x, PrevDay(d))
  {
  }

  lemma BeforeTransitive(a: Date, b: Date, c: Date)
    requires Before(a, b) && Before(b, c)
    ensures Before(a, c)
  {
  }

  /** The date `n` days before `today`, for the window the dashboard uses.
      Going back at most six days from a date in year 1 or later stays in
      year 0 or later, and crosses at most one year boundary. */
  function DaysBack(today: Date, n: nat): (r: Date)
    requires Valid(today) && today.year >= 1 && n <= 6
    ensures Valid(r)
    ensures r.year == today.year || (r.year == today.year - 1 && r.month == 12 && r.day >= 32 - n)
    ensures n == 0 ==> r == today
    ensures n > 0 ==> r == PrevDay(DaysBack(today, n - 1))
  {
    if n == 0 then today
    else PrevDay(DaysBack(today, n - 1))
  }

  /** Going further back gives an earlier date. */
  lemma {:induction false} DaysBackOrdered(today: Date, m: nat, n: nat)
    requires Valid(today) && today.year >= 1 && m < n <= 6
    ensures Before(DaysBack(today, n), DaysBack(today, m))
    decreases n - m
  {
    if n == m + 1 {
    } else {
      DaysBackOrdered(today, m, n - 1);
      BeforeTransitive(DaysBack(today, n), DaysBack(today, n - 1), DaysBack(today, m));
    }
  }

  /** `toISOString().split("T")[0]` of a date. */
  function Format(d: Date): (s: string)
    requires Valid(d)
    ensures |s| == 10
    ensures s[4] == '-' && s[7] == '-'
    ensures forall i :: 0 <= i < 10 && i != 4 && i != 7 ==> Text.IsDigit(s[i])
  {
    var s := Text.PadDigits(d.year, 4) + "-" + Text.PadDigits(d.month, 2) + "-" + Text.PadDigits(d.day, 2);
    assert s[..4] == Text.PadDigits(d.year, 4);
    assert s[5..7] == Text.PadDigits(d.month, 2);
    assert s[8..] == Text.PadDigits(d.day, 2);
    s
  }

  /** Reads a `YYYY-MM-DD` string back into a date. */
  function Parse(s: string): Date
    requires |s| == 10
    requires forall i :: 0 <= i < 10 && i != 4 && i != 7 ==> Text.IsDigit(s[i])
  {
    Date(Text.DigitsValue(s[..4]), Text.DigitsValue(s[5..7]), Text.DigitsValue(s[8..]))
  }

  lemma ParseFormat(d: Date)
    requires Valid(d)
    ensures Parse(Format(d)) == d
  {
    var s := Format(d);
    assert s[..4] == Text.PadDigits(d.year, 4);
    assert s[5..7] == Text.PadDigits(d.month, 2);
    assert s[8..] == Text.PadDigits(d.day, 2);
    assert Text.Pow10(2) == 100;
    assert Text.Pow10(4) == 10000 by {
      assert Text.Pow10(3) == 1000;
    }
    Text.PadDigitsValue(d.year, 4);
    Text.PadDigitsValue(d.month, 2);
    Text.PadDigitsValue(d.day, 2);
  }

  /** Different dates are spelled differently. */
  lemma FormatInjective(a: Date, b: Date)
    requires Valid(a) && Valid(b) && a != b
    ensures Format(a) != Format(b)
  {
    ParseFormat(a);
    ParseFormat(b);
  }

  /** The seven dates of the dashboard, six days ago first, today last. */
  function Week(today: Date): (w: seq<Date>)
    requires Valid(today) && today.year >= 1
    ensures |w| == 7
    ensures w[6] == today
    ensures forall i :: 0 <= i < 7 ==> Valid(w[i]) && w[i] == DaysBack(today, 6 - i)
    ensures forall i, j :: 0 <= i && j == i + 1 && j < 7 ==> w[j] != Date(0, 1, 1) && w[i] == PrevDay(w[j])
  {
    seq(7, i requires 0 <= i < 7 => DaysBack(today, 6 - i))
  }

  /** The window is in strictly increasing date order. */
  lemma WeekIncreasing(today: Date, i: int, j: int)
    requires Valid(today) && today.year >= 1
    requires 0 <= i < j < 7
    ensures Before(Week(today)[i], Week(today)[j])
  {
    DaysBackOrdered(today, 6 - j, 6 - i);
  }

  /** The seven `YYYY-MM-DD` strings of the window, six days ago first,
      today last. */
  function WeekStrings(today: Date): (ds: seq<string>)
    requires Valid(today) && today.year >= 1
    ensures |ds| == 7
    ensures ds[6] == Format(today)
    ensures forall i :: 0 <= i < 7 ==> ds[i] == Format(DaysBack(today, 6 - i))
    ensures forall i :: 0 <= i < 7 ==> |ds[i]| == 10
  {
    var w := Week(today);
    seq(7, i requires 0 <= i < 7 => Format(w[i]))
  }

  /** No two days of the window share a string. */
  lemma WeekStringsDistinct(today: Date)
    requires Valid(today) && today.year >= 1
    ensures forall i, j :: 0 <= i < j < 7 ==> WeekStrings(today)[i] != WeekStrings(today)[j]
  {
    var w := Week(today);
    forall i, j | 0 <= i < j < 7
      ensures WeekStrings(today)[i] != WeekStrings(today)[j]
    {
      WeekIncreasing(today, i, j);
      FormatInjective(w[i], w[j]);
    }
  }
}

=== FILE: catalog.dfy ===
/** The stock page (`src/pages/StokBarang.tsx`): registering and editing
    products, adding stock with its automatic purchase expense, deleting a
    product, and the name search. */
module Catalog {
  import opened Wrappers
  import opened Ledger
  import Seqs
  import Text

  /** The product dialog. Prices are text boxes: `None` is an empty box. */
  datatype ProductForm = ProductForm(name: string, buyPrice: Option<int>, sellPrice: Option<int>)

  /** The dialog's save button is enabled exactly when a name is entered;
      empty price boxes do not block it. */
  predicate CanSaveProduct(f: ProductForm) {
    f.name != ""
  }

  /** Saving the product dialog: with no product being edited a new product
      is registered with stock 0, otherwise every row with the edited id gets
      the form's name and prices and keeps its stock. */
  function SaveProduct(l: Ledger, editing: Option<Id>, f: ProductForm): (r: Ledger)
    ensures r.sales == l.sales && r.saleItems == l.saleItems && r.expenses == l.expenses
    ensures editing.None? ==>
      && |r.products| == |l.products| + 1
      && r.products[..|l.products|] == l.products
      && r.products[|l.products|].name == f.name
      && r.products[|l.products|].buyPrice == NumberOf(f.buyPrice)
      && r.products[|l.products|].sellPrice == NumberOf(f.sellPrice)
      && r.products[|l.products|].stock == 0
      && (forall i :: 0 <= i < |l.products| ==> l.products[i].id != r.products[|l.products|].id)
    ensures editing.Some? ==>
      && |r.products| == |l.products|
      && (forall i :: 0 <= i < |l.products| ==>
            r.products[i].id == l.products[i].id && r.products[i].stock == l.products[i].stock)
      && (forall i :: 0 <= i < |l.products| && l.products[i].id != editing.value ==>
            r.products[i] == l.products[i])
      && (forall i :: 0 <= i < |l.products| && l.products[i].id == editing.value ==>
            r.products[i].name == f.name
            && r.products[i].buyPrice == NumberOf(f.buyPrice)
            && r.products[i].sellPrice == NumberOf(f.sellPrice))
  {
    var name, buy, sell := f.name, NumberOf(f.buyPrice), NumberOf(f.sellPrice);
    match editing
    case None =>
      var p := Product(NewProductId(l.products), name, buy, sell, 0);
      assert (l.products + [p])[..|l.products|] == l.products;
      l.(products := l.products + [p])
    case Some(id) =>
      var ps := seq(|l.products|, i requires 0 <= i < |l.products| =>
        var q := l.products[i];
        if q.id == id then q.(name := name, buyPrice := buy, sellPrice := sell) else q);
      l.(products := ps)
  }

  /** A product saved from an enabled dialog has a non-empty name. */
  lemma SavedProductNamed(l: Ledger, editing: Option<Id>, f: ProductForm)
    requires CanSaveProduct(f)
    ensures editing.None? ==> SaveProduct(l, editing, f).products[|l.products|].name != ""
    ensures editing.Some? ==> forall i :: 0 <= i < |l.products| && l.products[i].id == editing.value ==>
      SaveProduct(l, editing, f).products[i].name != ""
  {
  }

  /** Saving keeps the ledger consistent. */
  lemma SaveProductPreservesValid(l: Ledger, editing: Option<Id>, f: ProductForm)
    requires Valid(l)
    ensures Valid(SaveProduct(l, editing, f))
  {
    var r := SaveProduct(l, editing, f);
    if editing.None? {
      assert r.products == l.products + [r.products[|l.products|]];
    } else {
      assert forall i, j :: 0 <= i < j < |r.products| ==>
        r.products[i].id == l.products[i].id && r.products[j].id == l.products[j].id;
    }
  }

  const ProductNotFound := "Produk tidak ditemukan"
  const QtyNotPositive := "Qty harus lebih dari 0"

  /** The add-stock button is enabled when a product is chosen and the
      quantity box holds a positive number. */
  predicate CanAddStock(selected: Option<Id>, qtyField: Option<int>) {
    selected.Some? && qtyField.Some? && qtyField.value > 0
  }

  /** The purchase expense recorded for `qty` units of `p`. */
  function PurchaseExpense(id: Id, p: Product, qty: nat, today: string): (e: Expense)
    ensures e.id == id && e.expenseDate == today
    ensures e.amount == p.buyPrice * qty
    ensures e.category == ProductPurchaseName
  {
    Expense(id, "Beli Produk: " + p.name, p.buyPrice * qty, ProductPurchaseName,
            "Tambah " + Text.NatToString(qty) + " unit", today)
  }

  /** Adding stock: an unknown product or a quantity that is not positive is
      refused (the mutation throws) and nothing changes; otherwise every row with the product's
      id gets stock `p.stock + qty` and one purchase expense is appended.
      `today` stands for the database's default expense date. */
  function AddStock(l: Ledger, pid: Id, qtyField: Option<int>, today: string): (r: Result<Ledger, string>)
    ensures FindProduct(l.products, pid).None? ==> r == Err(ProductNotFound)
    ensures FindProduct(l.products, pid).Some? && NumberOf(qtyField) <= 0 ==> r == Err(QtyNotPositive)
    ensures r.Ok? <==> FindProduct(l.products, pid).Some? && NumberOf(qtyField) > 0
    ensures r.Ok? ==>
      var p, qty, l' := FindProduct(l.products, pid).value, NumberOf(qtyField), r.value;
      && l'.sales == l.sales && l'.saleItems == l.saleItems
      && |l'.products| == |l.products|
      && (forall i :: 0 <= i < |l.products| ==>
            l'.products[i] == if l.products[i].id == pid then l.products[i].(stock := p.stock + qty) else l.products[i])
      && |l'.expenses| == |l.expenses| + 1
      && l'.expenses[..|l.expenses|] == l.expenses
      && l'.expenses[|l.expenses|].name == "Beli Produk: " + p.name
      && l'.expenses[|l.expenses|].amount == p.buyPrice * qty
      && l'.expenses[|l.expenses|].category == "Beli Produk"
      && l'.expenses[|l.expenses|].note == "Tambah " + Text.NatToString(qty) + " unit"
      && l'.expenses[|l.expenses|].expenseDate == today
      && (forall i :: 0 <= i < |l.expenses| ==> l.expenses[i].id != l'.expenses[|l.expenses|].id)
  {
    match FindProduct(l.products, pid)
    case None => Err(ProductNotFound)
    case Some(p) =>
      var qty := NumberOf(qtyField);
      if qty <= 0 then Err(QtyNotPositive)
      else
        var e := PurchaseExpense(NewExpenseId(l.expenses), p, qty, today);
        assert (l.expenses + [e])[..|l.expenses|] == l.expenses;
        Ok(l.(products := SetStock(l.products, p.id, p.stock + qty), expenses := l.expenses + [e]))
  }

  /** The enabled add-stock button never meets the quantity refusal: for a
      chosen product that exists, adding stock succeeds. */
  lemma CanAddStockAccepted(l: Ledger, selected: Option<Id>, qtyField: Option<int>, today: string)
    requires CanAddStock(selected, qtyField)
    ensures AddStock(l, selected.value, qtyField, today) != Err(QtyNotPositive)
    ensures AddStock(l, selected.value, qtyField, today).Ok? <==> FindProduct(l.products, selected.value).Some?
  {
  }

  /** Adding stock keeps the ledger consistent. */
  lemma AddStockPreservesValid(l: Ledger, pid: Id, qtyField: Option<int>, today: string)
    requires Valid(l)
    requires AddStock(l, pid, qtyField, today).Ok?
    ensures Valid(AddStock(l, pid, qtyField, today).value)
  {
    var r := AddStock(l, pid, qtyField, today).value;
    assert forall i, j :: 0 <= i < j < |r.products| ==>
      r.products[i].id == l.products[i].id && r.products[j].id == l.products[j].id;
    assert r.expenses == l.expenses + [r.expenses[|l.expenses|]];
  }

  /** One stock addition to the product at index `k`, seen from that index. */
  lemma AddStockAt(l: Ledger, k: int, q: int, today: string)
    requires UniqueProductIds(l.products) && 0 <= k < |l.products| && q > 0
    ensures AddStock(l, l.products[k].id, Some(q), today).Ok?
    ensures
      var r := AddStock(l, l.products[k].id, Some(q), today).value;
      && UniqueProductIds(r.products)
      && |r.products| == |l.products|
      && r.products[k] == l.products[k].(stock := l.products[k].stock + q)
      && |r.expenses| == |l.expenses| + 1
      && r.expenses[..|l.expenses|] == l.expenses
      && r.expenses[|l.expenses|].amount == l.products[k].buyPrice * q
  {
    FindUniqueProduct(l.products, k);
    var r := AddStock(l, l.products[k].id, Some(q), today).value;
    assert forall i, j :: 0 <= i < j < |r.products| ==>
      r.products[i].id == l.products[i].id && r.products[j].id == l.products[j].id;
  }

  /** Two stock additions of `q1` then `q2` to the product at index `k` raise
      its stock by `q1 + q2` and record purchase amounts summing to
      `buyPrice * (q1 + q2)`. */
  lemma AddStockTwice(l: Ledger, k: int, q1: int, q2: int, today: string)
    requires UniqueProductIds(l.products) && 0 <= k < |l.products|
    requires q1 > 0 && q2 > 0
    ensures AddStock(l, l.products[k].id, Some(q1), today).Ok?
    ensures
      var l1 := AddStock(l, l.products[k].id, Some(q1), today).value;
      var r := AddStock(l1, l.products[k].id, Some(q2), today);
      && r.Ok?
      && r.value.products[k].stock == l.products[k].stock + q1 + q2
      && |r.value.expenses| == |l.expenses| + 2
      && r.value.expenses[|l.expenses|].amount + r.value.expenses[|l.expenses| + 1].amount
         == l.products[k].buyPrice * (q1 + q2)
  {
    var p := l.products[k];
    AddStockAt(l, k, q1, today);
    var l1 := AddStock(l, p.id, Some(q1), today).value;
    AddStockAt(l1, k, q2, today);
    var r := AddStock(l1, p.id, Some(q2), today).value;
    assert r.expenses[|l.expenses|] == l1.expenses[|l.expenses|];
    assert p.buyPrice * (q1 + q2) == p.buyPrice * q1 + p.buyPrice * q2;
  }

  /** `delete().eq("id", id)`: every product with the id is removed. */
  function DeleteProduct(l: Ledger, id: Id): (r: Ledger)
    ensures r.sales == l.sales && r.saleItems == l.saleItems && r.expenses == l.expenses
    ensures forall p :: p in r.products <==> p in l.products && p.id != id
    ensures forall p: Product :: p.id != id ==> multiset(r.products)[p] == multiset(l.products)[p]
    ensures Seqs.IsSubsequence(r.products, l.products)
  {
    l.(products := Seqs.Filter(l.products, (p: Product) => p.id != id))
  }

  /** Deleting keeps the ledger consistent: historical sales and expenses do
      not depend on the product row. */
  lemma DeleteProductPreservesValid(l: Ledger, id: Id)
    requires Valid(l)
    ensures Valid(DeleteProduct(l, id))
  {
    Seqs.FilterUniqueKeys(l.products, (p: Product) => p.id != id, (p: Product) => p.id);
  }

  /** The search box: products whose lower-cased name contains the
      lower-cased query, in list order. */
  function SearchProducts(ps: seq<Product>, query: string): (r: seq<Product>)
    ensures forall p :: p in r <==> p in ps && Text.MatchesQuery(p.name, query)
    ensures forall p: Product :: Text.MatchesQuery(p.name, query) ==> multiset(r)[p] == multiset(ps)[p]
    ensures Seqs.IsSubsequence(r, ps)
  {
    Seqs.Filter(ps, (p: Product) => Text.MatchesQuery(p.name, query))
  }

  /** An empty search box lists every product. */
  lemma {:induction false} SearchProductsEmptyQuery(ps: seq<Product>)
    ensures SearchProducts(ps, "") == ps
  {
    forall i | 0 <= i < |ps|
      ensures Text.MatchesQuery(ps[i].name, "")
    {
      Text.EmptyQueryMatches(ps[i].name);
    }
    Seqs.FilterKeepAll(ps, (p: Product) => Text.MatchesQuery(p.name, ""));
  }
}

=== FILE: checkout.dfy ===
/** The sales page (`src/pages/Penjualan.tsx`): the cart, checkout, and the
    customer search over recorded sales. */
module Checkout {
  import opened Wrappers
  import opened Ledger
  import Seqs
  import Text

  /** A cart line, holding the product's name and prices as they were when
      the line was first added. */
  datatype CartItem = CartItem(productId: Id, productName: string, buyPrice: int, sellPrice: int, qty: int)

  /** What pressing "add" does: a new cart, nothing (no such product), or a
      refusal with an error toast. */
  datatype AddOutcome = Added(cart: seq<CartItem>) | Ignored | Rejected(message: string)

  const StockMessage := "Qty tidak valid atau stok tidak cukup"

  predicate InCart(cart: seq<CartItem>, pid: Id) {
    exists j :: 0 <= j < |cart| && cart[j].productId == pid
  }

  /** At most one line per product. */
  predicate DistinctCart(cart: seq<CartItem>) {
    forall i, j :: 0 <= i < j < |cart| ==> cart[i].productId != cart[j].productId
  }

  /** The total quantity of a product over the cart's lines. */
  function CartQty(cart: seq<CartItem>, pid: Id): int {
    Seqs.Sum(cart, (c: CartItem) => if c.productId == pid then c.qty else 0)
  }

  /** The add button: the chosen product must exist; the quantity must be
      positive and at most the product's stock. The check looks at this
      quantity only, not at what the cart already holds. An existing line of
      the product grows by the quantity; otherwise a line is appended. */
  function AddToCart(cart: seq<CartItem>, products: seq<Product>, selected: Id, qtyField: Option<int>): (o: AddOutcome)
    ensures FindProduct(products, selected).None? ==> o == Ignored
    ensures FindProduct(products, selected).Some? ==>
      var p, qty := FindProduct(products, selected).value, NumberOf(qtyField);
      && (qty <= 0 || qty > p.stock ==> o == Rejected(StockMessage))
      && (0 < qty <= p.stock ==> o.Added?)
    ensures o.Added? ==>
      var p, qty := FindProduct(products, selected).value, NumberOf(qtyField);
      && (InCart(cart, p.id) ==>
            && |o.cart| == |cart|
            && forall i :: 0 <= i < |cart| ==>
                 o.cart[i] == if cart[i].productId == p.id then cart[i].(qty := cart[i].qty + qty) else cart[i])
      && (!InCart(cart, p.id) ==>
            o.cart == cart + [CartItem(p.id, p.name, p.buyPrice, p.sellPrice, qty)])
  {
    match FindProduct(products, selected)
    case None => Ignored
    case Some(p) =>
      var qty := NumberOf(qtyField);
      if qty <= 0 || qty > p.stock then Rejected(StockMessage)
      else if InCart(cart, p.id) then
        Added(seq(|cart|, i requires 0 <= i < |cart| =>
          if cart[i].productId == p.id then cart[i].(qty := cart[i].qty + qty) else cart[i]))
      else
        Added(cart + [CartItem(p.id, p.name, p.buyPrice, p.sellPrice, qty)])
  }

  /** The cart shown after pressing "add". */
  function CartAfter(cart: seq<CartItem>, o: AddOutcome): seq<CartItem> {
    if o.Added? then o.cart else cart
  }

  /** An unknown product, a quantity that is not positive, or a quantity above
      the stock leaves the cart as it was. */
  lemma AddToCartRefused(cart: seq<CartItem>, products: seq<Product>, selected: Id, qtyField: Option<int>)
    requires
      || FindProduct(products, selected).None?
      || NumberOf(qtyField) <= 0
      || NumberOf(qtyField) > FindProduct(products, selected).value.stock
    ensures CartAfter(cart, AddToCart(cart, products, selected, qtyField)) == cart
  {
  }

  lemma {:induction false} CartQtyAbsent(cart: seq<CartItem>, pid: Id)
    requires !InCart(cart, pid)
    ensures CartQty(cart, pid) == 0
  {
    Seqs.SumZero(cart, (c: CartItem) => if c.productId == pid then c.qty else 0);
  }

  /** In a cart with one line per product, a product's quantity is its line's. */
  lemma {:induction false} CartQtyOfLine(cart: seq<CartItem>, k: int)
    requires DistinctCart(cart) && 0 <= k < |cart|
    ensures CartQty(cart, cart[k].productId) == cart[k].qty
    decreases |cart|
  {
    var pid := cart[k].productId;
    var f := (c: CartItem) => if c.productId == pid then c.qty else 0;
    assert cart == [cart[0]] + cart[1..];
    Seqs.SumAppend([cart[0]], cart[1..], f);
    if k == 0 {
      assert !InCart(cart[1..], pid) by {
        forall j | 0 <= j < |cart[1..]|
          ensures cart[1..][j].productId != pid
        {
          assert cart[1..][j] == cart[j + 1];
        }
      }
      CartQtyAbsent(cart[1..], pid);
    } else {
      assert cart[1..][k - 1] == cart[k];
      assert DistinctCart(cart[1..]) by {
        forall i, j | 0 <= i < j < |cart[1..]|
          ensures cart[1..][i].productId != cart[1..][j].productId
        {
          assert cart[1..][i] == cart[i + 1] && cart[1..][j] == cart[j + 1];
        }
      }
      CartQtyOfLine(cart[1..], k - 1);
    }
  }

  /** Adding keeps one line per product. */
  lemma AddToCartDistinct(cart: seq<CartItem>, products: seq<Product>, selected: Id, qtyField: Option<int>)
    requires DistinctCart(cart)
    ensures DistinctCart(CartAfter(cart, AddToCart(cart, products, selected, qtyField)))
  {
    var o := AddToCart(cart, products, selected, qtyField);
    if o.Added? {
      var p := FindProduct(products, selected).value;
      if !InCart(cart, p.id) {
        var c := o.cart;
        forall i, j | 0 <= i < j < |c|
          ensures c[i].productId != c[j].productId
        {
          if j == |cart| {
            assert c[i] == cart[i];
          } else {
            assert c[i] == cart[i] && c[j] == cart[j];
          }
        }
      }
    }
  }

  /** After a successful add the chosen product's quantity in the cart has
      grown by the added quantity and every other product's is unchanged. */
  lemma AddToCartQty(cart: seq<CartItem>, products: seq<Product>, selected: Id, qtyField: Option<int>, pid: Id)
    requires DistinctCart(cart)
    requires AddToCart(cart, products, selected, qtyField).Added?
    ensures
      var p := FindProduct(products, selected).value;
      CartQty(AddToCart(cart, products, selected, qtyField).cart, pid)
        == CartQty(cart, pid) + (if pid == p.id then NumberOf(qtyField) else 0)
  {
    var p, qty := FindProduct(products, selected).value, NumberOf(qtyField);
    var c := AddToCart(cart, products, selected, qtyField).cart;
    AddToCartDistinct(cart, products, selected, qtyField);
    if InCart(cart, p.id) {
      if InCart(cart, pid) {
        var k :| 0 <= k < |cart| && cart[k].productId == pid;
        CartQtyOfLine(cart, k);
        CartQtyOfLine(c, k);
      } else {
        CartQtyAbsent(cart, pid);
        assert !InCart(c, pid) by {
          forall j | 0 <= j < |c|
            ensures c[j].productId != pid
          {
            assert c[j].productId == cart[j].productId;
          }
        }
        CartQtyAbsent(c, pid);
      }
    } else {
      var line := CartItem(p.id, p.name, p.buyPrice, p.sellPrice, qty);
      Seqs.SumAppend(cart, [line], (x: CartItem) => if x.productId == pid then x.qty else 0);
    }
  }

  /** The stock check is per add, not cumulative: two adds of `q` units of a
      product with `q <= stock < 2q` both pass and leave one line of `2q`
      units, more than the stock. */
  lemma PerAddStockCheck(products: seq<Product>, k: int, q: int)
    requires UniqueProductIds(products) && 0 <= k < |products|
    requires 0 < q <= products[k].stock < 2 * q
    ensures
      var p := products[k];
      var c1 := CartAfter([], AddToCart([], products, p.id, Some(q)));
      var c2 := CartAfter(c1, AddToCart(c1, products, p.id, Some(q)));
      && c2 == [CartItem(p.id, p.name, p.buyPrice, p.sellPrice, 2 * q)]
      && c2[0].qty > p.stock
  {
    var p := products[k];
    FindUniqueProduct(products, k);
    var c1 := CartAfter([], AddToCart([], products, p.id, Some(q)));
    assert c1 == [CartItem(p.id, p.name, p.buyPrice, p.sellPrice, q)];
    assert c1[0].productId == p.id;
    assert InCart(c1, p.id);
  }

  /** `cart.filter((c) => c.product_id !== pid)`. */
  function RemoveFromCart(cart: seq<CartItem>, pid: Id): (r: seq<CartItem>)
    ensures !InCart(r, pid)
    ensures forall c :: c in r <==> c in cart && c.productId != pid
    ensures forall c: CartItem :: c.productId != pid ==> multiset(r)[c] == multiset(cart)[c]
    ensures Seqs.IsSubsequence(r, cart)
  {
    var r := Seqs.Filter(cart, (c: CartItem) => c.productId != pid);
    assert forall j :: 0 <= j < |r| ==> r[j] in r;
    r
  }

  /** Removing a product keeps at most one line per product. */
  lemma RemoveFromCartDistinct(cart: seq<CartItem>, pid: Id)
    requires DistinctCart(cart)
    ensures DistinctCart(RemoveFromCart(cart, pid))
  {
    Seqs.FilterUniqueKeys(cart, (c: CartItem) => c.productId != pid, (c: CartItem) => c.productId);
  }

  /** Removing a product that was just added as a new line gives the old
      cart back. */
  lemma RemoveUndoesNewLine(cart: seq<CartItem>, products: seq<Product>, selected: Id, qtyField: Option<int>)
    requires AddToCart(cart, products, selected, qtyField).Added?
    requires !InCart(cart, FindProduct(products, selected).value.id)
    ensures RemoveFromCart(AddToCart(cart, products, selected, qtyField).cart, selected) == cart
  {
    var p := FindProduct(products, selected).value;
    var keep := (c: CartItem) => c.productId != selected;
    var line := CartItem(p.id, p.name, p.buyPrice, p.sellPrice, NumberOf(qtyField));
    Seqs.FilterAppend(cart, [line], keep);
    Seqs.FilterKeepAll(cart, keep);
    assert Seqs.Filter([line], keep) == [];
  }

  /** `cart.reduce((s, c) => s + c.sell_price * c.qty, 0)`. */
  function CartTotal(cart: seq<CartItem>): int {
    Seqs.Sum(cart, (c: CartItem) => c.sellPrice * c.qty)
  }

  /** `cart.reduce((s, c) => s + c.buy_price * c.qty, 0)`. */
  function CartCost(cart: seq<CartItem>): int {
    Seqs.Sum(cart, (c: CartItem) => c.buyPrice * c.qty)
  }

  /** `customerName || "Umum"`: a recorded sale always names a customer. */
  function CustomerOrDefault(name: string): (r: string)
    ensures r != ""
    ensures name != "" ==> r == name
  {
    if name == "" then "Umum" else name
  }

  /** The sale_items rows of a checkout, one per cart line. */
  function SaleItemsOf(cart: seq<CartItem>, sid: Id): (items: seq<SaleItem>)
    ensures |items| == |cart|
  {
    seq(|cart|, i requires 0 <= i < |cart| =>
      SaleItem(sid, cart[i].productId, cart[i].productName, cart[i].qty,
               cart[i].buyPrice, cart[i].sellPrice, cart[i].sellPrice * cart[i].qty))
  }

  /** One line's stock update: every row with the line's product id gets the
      product's stock before checkout minus the line's quantity. */
  function StepStock(ps: seq<Product>, snapshot: seq<Product>, c: CartItem): (r: seq<Product>)
    ensures |r| == |ps|
    ensures forall i :: 0 <= i < |ps| ==>
      && r[i].id == ps[i].id && r[i].name == ps[i].name
      && r[i].buyPrice == ps[i].buyPrice && r[i].sellPrice == ps[i].sellPrice
    ensures forall i :: 0 <= i < |ps| && ps[i].id != c.productId ==> r[i] == ps[i]
  {
    match FindProduct(snapshot, c.productId)
    case None => ps
    case Some(p) => SetStock(ps, p.id, p.stock - c.qty)
  }

  /** The stock updates of checkout: for each line in order, the product as
      it was before checkout (`snapshot`) is looked up and every row with its
      id gets stock `snapshot stock - line qty`; lines whose product is gone
      are skipped. */
  function DecrementStock(ps: seq<Product>, snapshot: seq<Product>, cart: seq<CartItem>): (r: seq<Product>)
    ensures |r| == |ps|
    ensures forall i :: 0 <= i < |ps| ==>
      && r[i].id == ps[i].id && r[i].name == ps[i].name
      && r[i].buyPrice == ps[i].buyPrice && r[i].sellPrice == ps[i].sellPrice
    ensures forall i :: 0 <= i < |ps| && !InCart(cart, ps[i].id) ==> r[i] == ps[i]
    decreases |cart|
  {
    if cart == [] then ps
    else
      assert forall id :: !InCart(cart, id) ==> !InCart(cart[1..], id) && cart[0].productId != id by {
        forall id | !InCart(cart, id)
          ensures !InCart(cart[1..], id) && cart[0].productId != id
        {
          assert forall j :: 0 <= j < |cart[1..]| ==> cart[1..][j] == cart[j + 1];
        }
      }
      DecrementStock(StepStock(ps, snapshot, cart[0]), snapshot, cart[1..])
  }

  /** Checkout: one sale with the cart's total, cost and profit; one sale item
      per cart line; each carted product's stock decreased. Expenses are not
      touched. `now` stands for the database's default `created_at`. */
  function SubmitSale(l: Ledger, cart: seq<CartItem>, customerName: string, now: string): (r: Ledger)
    ensures r.expenses == l.expenses
    ensures |r.sales| == |l.sales| + 1 && r.sales[..|l.sales|] == l.sales
    ensures
      var s := r.sales[|l.sales|];
      && (forall i :: 0 <= i < |l.sales| ==> l.sales[i].id != s.id)
      && s.customerName == (if customerName == "" then "Umum" else customerName)
      && s.customerName != ""
      && s.total == CartTotal(cart)
      && s.cost == CartCost(cart)
      && s.profit == s.total - s.cost
      && s.createdAt == now
    ensures |r.saleItems| == |l.saleItems| + |cart| && r.saleItems[..|l.saleItems|] == l.saleItems
    ensures forall i :: 0 <= i < |cart| ==>
      var it := r.saleItems[|l.saleItems| + i];
      && it.saleId == r.sales[|l.sales|].id
      && it.productId == cart[i].productId && it.productName == cart[i].productName
      && it.qty == cart[i].qty && it.buyPrice == cart[i].buyPrice && it.sellPrice == cart[i].sellPrice
      && it.subtotal == cart[i].sellPrice * cart[i].qty
    ensures |r.products| == |l.products|
    ensures forall i :: 0 <= i < |l.products| ==>
      && r.products[i].id == l.products[i].id && r.products[i].name == l.products[i].name
      && r.products[i].buyPrice == l.products[i].buyPrice && r.products[i].sellPrice == l.products[i].sellPrice
    ensures forall i :: 0 <= i < |l.products| && !InCart(cart, l.products[i].id) ==> r.products[i] == l.products[i]
  {
    var total, cost := CartTotal(cart), CartCost(cart);
    var sale := Sale(NewSaleId(l.sales), CustomerOrDefault(customerName), total, cost, total - cost, now);
    var items := SaleItemsOf(cart, sale.id);
    assert (l.sales + [sale])[..|l.sales|] == l.sales;
    assert (l.saleItems + items)[..|l.saleItems|] == l.saleItems;
    Ledger(DecrementStock(l.products, l.products, cart), l.sales + [sale], l.saleItems + items, l.expenses)
  }

  /** The new items' subtotals add up to the new sale's total, and their
      buy-price costs to its cost. */
  lemma {:induction false} ItemsOfCartSum(cart: seq<CartItem>, sid: Id)
    ensures ItemsTotal(SaleItemsOf(cart, sid), sid) == CartTotal(cart)
    ensures ItemsCost(SaleItemsOf(cart, sid), sid) == CartCost(cart)
    decreases |cart|
  {
    if cart != [] {
      var items := SaleItemsOf(cart, sid);
      assert items == [items[0]] + SaleItemsOf(cart[1..], sid);
      ItemsOfCartSum(cart[1..], sid);
    }
  }

  lemma SubmitSaleSubtotals(l: Ledger, cart: seq<CartItem>, customerName: string, now: string)
    ensures
      var r := SubmitSale(l, cart, customerName, now);
      var s := r.sales[|l.sales|];
      && ItemsTotal(r.saleItems[|l.saleItems|..], s.id) == s.total
      && ItemsCost(r.saleItems[|l.saleItems|..], s.id) == s.cost
  {
    var r := SubmitSale(l, cart, customerName, now);
    var sid := r.sales[|l.sales|].id;
    assert r.saleItems[|l.saleItems|..] == SaleItemsOf(cart, sid);
    ItemsOfCartSum(cart, sid);
  }

  lemma CartTailFacts(cart: seq<CartItem>, id: Id)
    requires cart != []
    ensures CartQty(cart, id) == (if cart[0].productId == id then cart[0].qty else 0) + CartQty(cart[1..], id)
    ensures InCart(cart, id) && cart[0].productId != id ==> InCart(cart[1..], id)
    ensures DistinctCart(cart) ==> DistinctCart(cart[1..]) && !InCart(cart[1..], cart[0].productId)
  {
    var rest := cart[1..];
    assert forall j :: 0 <= j < |rest| ==> rest[j] == cart[j + 1];
    if InCart(cart, id) && cart[0].productId != id {
      var j :| 0 <= j < |cart| && cart[j].productId == id;
      assert rest[j - 1] == cart[j];
    }
  }

  /** With unique product ids and one line per product, a carted product's
      stock after the updates is its stock before checkout minus its cart
      quantity. */
  lemma {:induction false} DecrementStockAt(ps: seq<Product>, snapshot: seq<Product>, cart: seq<CartItem>, i: int)
    requires UniqueProductIds(snapshot) && |ps| == |snapshot|
    requires forall k :: 0 <= k < |ps| ==> ps[k].id == snapshot[k].id
    requires DistinctCart(cart)
    requires 0 <= i < |ps| && InCart(cart, ps[i].id)
    ensures DecrementStock(ps, snapshot, cart)[i].stock == snapshot[i].stock - CartQty(cart, ps[i].id)
    decreases |cart|
  {
    var c, rest, id := cart[0], cart[1..], ps[i].id;
    var next := StepStock(ps, snapshot, c);
    CartTailFacts(cart, id);
    CartTailFacts(cart, c.productId);
    if id == c.productId {
      CartQtyAbsent(rest, id);
      FindUniqueProduct(snapshot, i);
      assert next[i].stock == snapshot[i].stock - c.qty;
    } else {
      DecrementStockAt(next, snapshot, rest, i);
    }
  }

  /** Checkout's stock effect, as the page intends it: each product loses
      exactly its cart quantity, which is 0 for products not in the cart. */
  lemma SubmitSaleStock(l: Ledger, cart: seq<CartItem>, customerName: string, now: string)
    requires UniqueProductIds(l.products) && DistinctCart(cart)
    ensures forall i :: 0 <= i < |l.products| ==>
      SubmitSale(l, cart, customerName, now).products[i].stock == l.products[i].stock - CartQty(cart, l.products[i].id)
  {
    forall i | 0 <= i < |l.products|
      ensures SubmitSale(l, cart, customerName, now).products[i].stock == l.products[i].stock - CartQty(cart, l.products[i].id)
    {
      if InCart(cart, l.products[i].id) {
        DecrementStockAt(l.products, l.products, cart, i);
      } else {
        CartQtyAbsent(cart, l.products[i].id);
      }
    }
  }

  /** Nothing stops stock going negative: a product with `q <= stock < 2q`
      added twice with `q` units and checked out ends with `stock - 2q < 0`. */
  lemma CheckoutCanOversell(l: Ledger, k: int, q: int, customerName: string, now: string)
    requires UniqueProductIds(l.products) && 0 <= k < |l.products|
    requires 0 < q <= l.products[k].stock < 2 * q
    ensures
      var p := l.products[k];
      var c1 := CartAfter([], AddToCart([], l.products, p.id, Some(q)));
      var c2 := CartAfter(c1, AddToCart(c1, l.products, p.id, Some(q)));
      SubmitSale(l, c2, customerName, now).products[k].stock < 0
  {
    var p := l.products[k];
    PerAddStockCheck(l.products, k, q);
    var c2 := [CartItem(p.id, p.name, p.buyPrice, p.sellPrice, 2 * q)];
    SubmitSaleStock(l, c2, customerName, now);
    CartQtyOfLine(c2, 0);
  }

  /** Appending a sale with a fresh id together with its own items keeps
      every item owned by a sale. */
  lemma AppendSaleOwnership(sales: seq<Sale>, items: seq<SaleItem>, s: Sale, newItems: seq<SaleItem>)
    requires forall i :: 0 <= i < |items| ==> HasSale(sales, items[i].saleId)
    requires forall k :: 0 <= k < |newItems| ==> newItems[k].saleId == s.id
    ensures forall i :: 0 <= i < |items + newItems| ==> HasSale(sales + [s], (items + newItems)[i].saleId)
  {
    var ss, all := sales + [s], items + newItems;
    forall i | 0 <= i < |all|
      ensures HasSale(ss, all[i].saleId)
    {
      if i < |items| {
        assert all[i] == items[i];
        var j :| 0 <= j < |sales| && sales[j].id == items[i].saleId;
        assert ss[j] == sales[j];
      } else {
        assert all[i] == newItems[i - |items|];
        assert ss[|sales|] == s;
      }
    }
  }

  /** Appending a sale with a fresh id together with its own items keeps each
      sale's total and cost equal to the sums over its items. */
  lemma AppendSaleTotalsAt(sales: seq<Sale>, items: seq<SaleItem>, s: Sale, newItems: seq<SaleItem>, i: int)
    requires forall k :: 0 <= k < |items| ==> HasSale(sales, items[k].saleId)
    requires forall k :: 0 <= k < |sales| ==> sales[k].id != s.id
    requires forall k :: 0 <= k < |newItems| ==> newItems[k].saleId == s.id
    requires ItemsTotal(newItems, s.id) == s.total && ItemsCost(newItems, s.id) == s.cost
    requires forall k :: 0 <= k < |sales| ==>
      ItemsTotal(items, sales[k].id) == sales[k].total && ItemsCost(items, sales[k].id) == sales[k].cost
    requires 0 <= i <= |sales|
    ensures
      var t := (sales + [s])[i];
      ItemsTotal(items + newItems, t.id) == t.total && ItemsCost(items + newItems, t.id) == t.cost
  {
    var t := (sales + [s])[i];
    var sid := t.id;
    var ft := (it: SaleItem) => if it.saleId == sid then it.subtotal else 0;
    var fc := (it: SaleItem) => if it.saleId == sid then it.buyPrice * it.qty else 0;
    Seqs.SumAppend(items, newItems, ft);
    Seqs.SumAppend(items, newItems, fc);
    if i < |sales| {
      assert t == sales[i];
      Seqs.SumZero(newItems, ft);
      Seqs.SumZero(newItems, fc);
    } else {
      assert t == s;
      forall k | 0 <= k < |items|
        ensures items[k].saleId != sid
      {
        var j :| 0 <= j < |sales| && sales[j].id == items[k].saleId;
      }
      Seqs.SumZero(items, ft);
      Seqs.SumZero(items, fc);
    }
  }

  /** Recording a sale with a fresh id, a profit of total minus cost and its
      own correctly priced items, and changing only stock levels, keeps the
      ledger consistent. */
  lemma AppendSalePreservesValid(l: Ledger, ps: seq<Product>, s: Sale, newItems: seq<SaleItem>)
    requires Valid(l)
    requires |ps| == |l.products| && forall i :: 0 <= i < |ps| ==> ps[i].id == l.products[i].id
    requires forall k :: 0 <= k < |l.sales| ==> l.sales[k].id != s.id
    requires s.profit == s.total - s.cost
    requires forall k :: 0 <= k < |newItems| ==>
      newItems[k].saleId == s.id && newItems[k].subtotal == newItems[k].sellPrice * newItems[k].qty
    requires ItemsTotal(newItems, s.id) == s.total && ItemsCost(newItems, s.id) == s.cost
    ensures Valid(Ledger(ps, l.sales + [s], l.saleItems + newItems, l.expenses))
  {
    var r := Ledger(ps, l.sales + [s], l.saleItems + newItems, l.expenses);
    assert forall i, j :: 0 <= i < j < |ps| ==> ps[i].id == l.products[i].id && ps[j].id == l.products[j].id;
    AppendSaleOwnership(l.sales, l.saleItems, s, newItems);
    forall i | 0 <= i < |r.sales|
      ensures ItemsTotal(r.saleItems, r.sales[i].id) == r.sales[i].total
      ensures ItemsCost(r.saleItems, r.sales[i].id) == r.sales[i].cost
    {
      AppendSaleTotalsAt(l.sales, l.saleItems, s, newItems, i);
    }
  }

  /** Checkout keeps the ledger consistent: the new sale's profit is its
      total minus its cost, and its items add up to its total and cost. */
  lemma SubmitSalePreservesValid(l: Ledger, cart: seq<CartItem>, customerName: string, now: string)
    requires Valid(l)
    ensures Valid(SubmitSale(l, cart, customerName, now))
  {
    var r := SubmitSale(l, cart, customerName, now);
    var s := r.sales[|l.sales|];
    var items := r.saleItems[|l.saleItems|..];
    assert r.sales == l.sales + [s];
    assert r.saleItems == l.saleItems + items;
    assert items == SaleItemsOf(cart, s.id);
    ItemsOfCartSum(cart, s.id);
    AppendSalePreservesValid(l, r.products, s, items);
    assert r == Ledger(r.products, l.sales + [s], l.saleItems + items, l.expenses);
  }

  /** The customer search over recorded sales. */
  function SearchSales(sales: seq<Sale>, query: string): (r: seq<Sale>)
    ensures forall s :: s in r <==> s in sales && Text.MatchesQuery(s.customerName, query)
    ensures forall s: Sale :: Text.MatchesQuery(s.customerName, query) ==> multiset(r)[s] == multiset(sales)[s]
    ensures Seqs.IsSubsequence(r, sales)
  {
    Seqs.Filter(sales, (s: Sale) => Text.MatchesQuery(s.customerName, query))
  }

  /** The checkout button is enabled only for a non-empty cart. */
  predicate CanSubmitSale(cart: seq<CartItem>) {
    |cart| > 0
  }

  /** A checkout from the enabled button records a sale with at least one
      item of its own. */
  lemma SubmittedSaleHasItems(l: Ledger, cart: seq<CartItem>, customerName: string, now: string)
    requires CanSubmitSale(cart)
    ensures
      var r := SubmitSale(l, cart, customerName, now);
      && |r.saleItems| > |l.saleItems|
      && r.saleItems[|l.saleItems|].saleId == r.sales[|l.sales|].id
  {
  }
}

=== FILE: csv.dfy ===
/** The CSV text of the report export (`downloadCSV` in
    `src/pages/Laporan.tsx`): an unquoted header line, then one line per row
    whose cells are wrapped in double quotes with inner quotes doubled, all
    joined by newlines. A reader for the quoted lines is the encoder's
    partner: it gives every row back. */
module Csv {
  import opened Wrappers
  import Text

  /** `s.replace(/"/g, '""')`. */
  function EscapeQuotes(s: string): (r: string)
    ensures |r| >= |s|
    ensures forall c :: c in r <==> c in s
    decreases |s|
  {
    if s == [] then []
    else
      var rest := EscapeQuotes(s[1..]);
      assert forall c :: c in s <==> c == s[0] || c in s[1..];
      if s[0] == '"' then ['"', '"'] + rest else [s[0]] + rest
  }

  /** One data cell: `"` + escaped text + `"`. */
  function QuoteCell(c: string): (r: string)
    ensures |r| >= 2 && r[0] == '"' && r[|r| - 1] == '"'
    ensures forall x :: x in r <==> x == '"' || x in c
  {
    ['"'] + EscapeQuotes(c) + ['"']
  }

  /** One data line: the quoted cells joined by commas. */
  function EncodeRow(row: seq<string>): string {
    Text.Join(seq(|row|, i requires 0 <= i < |row| => QuoteCell(row[i])), ',')
  }

  /** The whole file: the header line, then the data lines, joined by
      newlines. */
  function EncodeCsv(headers: seq<string>, rows: seq<seq<string>>): string {
    Text.Join([Text.Join(headers, ',')] + seq(|rows|, i requires 0 <= i < |rows| => EncodeRow(rows[i])), '\n')
  }

  // Reading the quoted lines back

  /** Reads a quoted cell's text after its opening quote, up to the closing
      quote: a doubled quote stands for one quote. Gives the text and what
      follows the closing quote. */
  function UnquoteField(s: string): (r: Option<(string, string)>)
    ensures r.Some? ==> |r.value.1| < |s|
    decreases |s|
  {
    if s == [] then None
    else if s[0] == '"' then
      if |s| >= 2 && s[1] == '"' then
        match UnquoteField(s[2..])
        case None => None
        case Some((c, rest)) => Some((['"'] + c, rest))
      else Some(([], s[1..]))
    else
      match UnquoteField(s[1..])
      case None => None
      case Some((c, rest)) => Some(([s[0]] + c, rest))
  }

  /** Reads comma-separated quoted cells filling the whole line. */
  function ParseCells(s: string): Option<seq<string>>
    decreases |s|
  {
    if s == [] || s[0] != '"' then None
    else
      match UnquoteField(s[1..])
      case None => None
      case Some((c, rest)) =>
        if rest == [] then Some([c])
        else if rest[0] != ',' then None
        else
          match ParseCells(rest[1..])
          case None => None
          case Some(cs) => Some([c] + cs)
  }

  /** Reads one data line; the empty line is the row without cells. */
  function ParseRow(s: string): Option<seq<string>> {
    if s == [] then Some([]) else ParseCells(s)
  }

  /** The reader undoes the escaping of one cell when what follows the
      closing quote does not start with another quote. */
  lemma {:induction false} UnquoteEscaped(c: string, t: string)
    requires t == [] || t[0] != '"'
    ensures UnquoteField(EscapeQuotes(c) + ['"'] + t) == Some((c, t))
    decreases |c|
  {
    if c == [] {
      assert EscapeQuotes(c) + ['"'] + t == ['"'] + t;
    } else {
      var s := EscapeQuotes(c) + ['"'] + t;
      var tail := EscapeQuotes(c[1..]) + ['"'] + t;
      UnquoteEscaped(c[1..], t);
      if c[0] == '"' {
        assert s == ['"', '"'] + tail;
        assert s[2..] == tail;
      } else {
        assert s == [c[0]] + tail;
        assert s[1..] == tail;
      }
      assert c == [c[0]] + c[1..];
    }
  }

  /** Every non-empty row is read back from its line. */
  lemma {:induction false} ParseCellsEncoded(row: seq<string>)
    requires |row| > 0
    ensures ParseCells(EncodeRow(row)) == Some(row)
    decreases |row|
  {
    var cells := seq(|row|, i requires 0 <= i < |row| => QuoteCell(row[i]));
    var q := QuoteCell(row[0]);
    assert cells[0] == q;
    if |row| == 1 {
      assert EncodeRow(row) == q;
      UnquoteEscaped(row[0], []);
      assert q[1..] == EscapeQuotes(row[0]) + ['"'] + [];
      assert row == [row[0]];
    } else {
      var rest := EncodeRow(row[1..]);
      assert cells[1..] == seq(|row[1..]|, i requires 0 <= i < |row[1..]| => QuoteCell(row[1..][i]));
      assert EncodeRow(row) == q + [','] + rest;
      var t := [','] + rest;
      UnquoteEscaped(row[0], t);
      assert (q + [','] + rest)[1..] == EscapeQuotes(row[0]) + ['"'] + t;
      assert t[1..] == rest;
      ParseCellsEncoded(row[1..]);
      assert row == [row[0]] + row[1..];
    }
  }

  /** Every row is read back from its line. */
  lemma RowRoundTrip(row: seq<string>)
    ensures ParseRow(EncodeRow(row)) == Some(row)
  {
    if |row| > 0 {
      ParseCellsEncoded(row);
      assert EncodeRow(row) != [] by {
        assert EncodeRow(row)[0] == '"' by { FirstCellLeads(row); }
      }
    }
  }

  /** A non-empty row's line starts with its first cell's opening quote. */
  lemma FirstCellLeads(row: seq<string>)
    requires |row| > 0
    ensures |EncodeRow(row)| > 0 && EncodeRow(row)[0] == '"'
  {
    var cells := seq(|row|, i requires 0 <= i < |row| => QuoteCell(row[i]));
    assert cells[0] == QuoteCell(row[0]);
  }

  // Line structure

  /** A join holds no character that is neither the separator nor in a part. */
  lemma {:induction false} JoinAvoids(xs: seq<string>, sep: char, c: char)
    requires c != sep
    requires forall i :: 0 <= i < |xs| ==> c !in xs[i]
    ensures c !in Text.Join(xs, sep)
    decreases |xs|
  {
    if |xs| > 1 {
      assert forall i :: 0 <= i < |xs[1..]| ==> xs[1..][i] == xs[i + 1];
      JoinAvoids(xs[1..], sep, c);
    }
  }

  /** A row whose cells hold no newline encodes to a line without newline. */
  lemma EncodeRowOneLine(row: seq<string>)
    requires forall j :: 0 <= j < |row| ==> '\n' !in row[j]
    ensures '\n' !in EncodeRow(row)
  {
    var cells := seq(|row|, i requires 0 <= i < |row| => QuoteCell(row[i]));
    JoinAvoids(cells, ',', '\n');
  }

  /** When no header or cell holds a newline, the file has 1 + |rows| lines:
      the header line (the headers joined by commas, unquoted), then each
      row's line, which reads back as that row. */
  lemma CsvLines(headers: seq<string>, rows: seq<seq<string>>)
    requires forall i :: 0 <= i < |headers| ==> '\n' !in headers[i]
    requires forall i, j :: 0 <= i < |rows| && 0 <= j < |rows[i]| ==> '\n' !in rows[i][j]
    ensures
      var lines := Text.Split(EncodeCsv(headers, rows), '\n');
      && |lines| == 1 + |rows|
      && lines[0] == Text.Join(headers, ',')
      && forall i :: 0 <= i < |rows| ==> ParseRow(lines[i + 1]) == Some(rows[i])
  {
    var encoded := seq(|rows|, i requires 0 <= i < |rows| => EncodeRow(rows[i]));
    var all := [Text.Join(headers, ',')] + encoded;
    JoinAvoids(headers, ',', '\n');
    forall i | 0 <= i < |all|
      ensures '\n' !in all[i]
    {
      if i > 0 {
        assert all[i] == EncodeRow(rows[i - 1]);
        EncodeRowOneLine(rows[i - 1]);
      }
    }
    Text.SplitJoin(all, '\n');
    forall i | 0 <= i < |rows|
      ensures ParseRow(all[i + 1]) == Some(rows[i])
    {
      RowRoundTrip(rows[i]);
    }
  }
}

=== FILE: dashboard.dfy ===
/** The dashboard (`src/pages/Dashboard.tsx`): all-time totals over every
    sale and expense, the difference between sales and expenses, the
    seven-day sales trend, and the two-slice expense composition. A table
    that has not loaded yet is `None` and counts as 0. */
module Dashboard {
  import opened Wrappers
  import opened Ledger
  import Seqs
  import Calendar
  import Report

  datatype DashboardTotals = DashboardTotals(
    totalSales: int, totalProfit: int, expOps: int, expBuy: int, totalExpenses: int, selisih: int)

  /** The four cards: sums over all rows, with no date filter; `selisih` is
      total sales minus both expense categories. */
  function Totals(sales: Option<seq<Sale>>, es: Option<seq<Expense>>): (r: DashboardTotals)
    ensures sales.None? ==> r.totalSales == 0 && r.totalProfit == 0
    ensures es.None? ==> r.expOps == 0 && r.expBuy == 0
    ensures sales.Some? ==> r.totalSales == Seqs.Sum(sales.value, (s: Sale) => s.total)
    ensures sales.Some? ==> r.totalProfit == Seqs.Sum(sales.value, (s: Sale) => s.profit)
    ensures es.Some? ==>
      r.expOps == Seqs.Sum(es.value, (e: Expense) => if e.category == OperationalName then e.amount else 0)
    ensures es.Some? ==>
      r.expBuy == Seqs.Sum(es.value, (e: Expense) => if e.category == ProductPurchaseName then e.amount else 0)
    ensures r.totalExpenses == r.expOps + r.expBuy
    ensures r.selisih == r.totalSales - (r.expOps + r.expBuy)
  {
    var totalSales := match sales case None => 0 case Some(ss) => Seqs.Sum(ss, (s: Sale) => s.total);
    var totalProfit := match sales case None => 0 case Some(ss) => Seqs.Sum(ss, (s: Sale) => s.profit);
    var ops := match es
      case None => 0
      case Some(xs) => (Report.CategorySumMasked(xs, OperationalName); Report.CategorySum(xs, OperationalName));
    var buy := match es
      case None => 0
      case Some(xs) => (Report.CategorySumMasked(xs, ProductPurchaseName); Report.CategorySum(xs, ProductPurchaseName));
    DashboardTotals(totalSales, totalProfit, ops, buy, ops + buy, totalSales - (ops + buy))
  }

  /** Every sale counts on the dashboard, whatever its date: one more sale
      raises total sales by its total and total profit by its profit. */
  lemma EverySaleCounts(sales: seq<Sale>, s: Sale, es: Option<seq<Expense>>)
    ensures Totals(Some(sales + [s]), es).totalSales == Totals(Some(sales), es).totalSales + s.total
    ensures Totals(Some(sales + [s]), es).totalProfit == Totals(Some(sales), es).totalProfit + s.profit
    ensures Totals(Some(sales + [s]), es).selisih == Totals(Some(sales), es).selisih + s.total
  {
    Seqs.SumAppend(sales, [s], (x: Sale) => x.total);
    Seqs.SumAppend(sales, [s], (x: Sale) => x.profit);
  }

  /** When every sale and expense falls in the report's date range, the
      dashboard shows the report's figures: total sales is revenue, total
      profit is gross profit, the category sums agree, and `selisih` is net
      profit. */
  lemma TotalsMatchReport(sales: seq<Sale>, es: seq<Expense>, start: string, end: string)
    requires forall i :: 0 <= i < |sales| ==> Report.SaleInRange(sales[i], start, end)
    requires forall i :: 0 <= i < |es| ==> Report.ExpenseInRange(es[i], start, end)
    ensures
      var d, r := Totals(Some(sales), Some(es)), Report.Summarize(sales, es, start, end);
      && d.totalSales == r.revenue && d.totalProfit == r.grossProfit
      && d.expOps == r.expOps && d.expBuy == r.expBuy
      && d.totalExpenses == r.totalExpense && d.selisih == r.netProfit
  {
    Seqs.SumPointwise(sales, (s: Sale) => s.total,
      (s: Sale) => if Report.SaleInRange(s, start, end) then s.total else 0);
    Seqs.SumPointwise(sales, (s: Sale) => s.profit,
      (s: Sale) => if Report.SaleInRange(s, start, end) then s.profit else 0);
    Seqs.FilterKeepAll(es, (e: Expense) => Report.ExpenseInRange(e, start, end));
    Report.CategorySumInRange(es, OperationalName, start, end);
    Report.CategorySumInRange(es, ProductPurchaseName, start, end);
  }

  // The seven-day trend

  /** One bar of the trend: the day's `YYYY-MM-DD` string and its sales. */
  datatype DayTotal = DayTotal(date: string, total: int)

  /** The total of the sales whose `created_at` starts with `day`. */
  function DayBucket(ss: seq<Sale>, day: string): (r: int)
    ensures r == Seqs.Sum(ss, (s: Sale) => if day <= s.createdAt then s.total else 0)
  {
    Seqs.SumFilter(ss, (s: Sale) => day <= s.createdAt, (s: Sale) => s.total,
      (s: Sale) => if day <= s.createdAt then s.total else 0);
    Seqs.Sum(Seqs.Filter(ss, (s: Sale) => day <= s.createdAt), (s: Sale) => s.total)
  }

  /** A sale's `created_at` starts with one of the trend's day strings. */
  predicate OnSomeDay(createdAt: string, trend: seq<DayTotal>) {
    exists i :: 0 <= i < |trend| && trend[i].date <= createdAt
  }

  /** The trend: seven bars, six days ago first and today last, each with
      the sales whose `created_at` starts with its day string. */
  function WeeklyTrend(sales: Option<seq<Sale>>, today: Calendar.Date): (r: seq<DayTotal>)
    requires Calendar.Valid(today) && today.year >= 1
    ensures |r| == 7
    ensures r[6].date == Calendar.Format(today)
    ensures forall i :: 0 <= i < 7 ==> r[i].date == Calendar.WeekStrings(today)[i]
    ensures forall i :: 0 <= i < 7 ==> r[i].date == Calendar.Format(Calendar.DaysBack(today, 6 - i))
    ensures sales.None? ==> forall i :: 0 <= i < 7 ==> r[i].total == 0
    ensures sales.Some? ==> forall i :: 0 <= i < 7 ==>
      r[i].total == Seqs.Sum(sales.value, (s: Sale) => if r[i].date <= s.createdAt then s.total else 0)
  {
    var days := Calendar.WeekStrings(today);
    var r := seq(7, i requires 0 <= i < 7 =>
      DayTotal(days[i], match sales case None => 0 case Some(ss) => DayBucket(ss, days[i])));
    forall i | 0 <= i < 7 && sales.Some?
      ensures r[i].total == Seqs.Sum(sales.value, (s: Sale) => if r[i].date <= s.createdAt then s.total else 0)
    {
      var day := days[i];
      Seqs.SumFilter(sales.value, (s: Sale) => day <= s.createdAt, (s: Sale) => s.total,
        (s: Sale) => if day <= s.createdAt then s.total else 0);
    }
    r
  }

  /** Two prefixes of one string with the same length are the same. */
  lemma SamePrefix(a: string, b: string, c: string)
    requires a <= c && b <= c && |a| == |b|
    ensures a == b
  {
    assert a == c[..|a|] && b == c[..|b|];
  }

  /** A sale lies in at most one bucket of the week. */
  lemma OneBucketPerSale(today: Calendar.Date, createdAt: string, i: int, j: int)
    requires Calendar.Valid(today) && today.year >= 1
    requires 0 <= i < 7 && 0 <= j < 7
    requires Calendar.WeekStrings(today)[i] <= createdAt && Calendar.WeekStrings(today)[j] <= createdAt
    ensures i == j
  {
    var days := Calendar.WeekStrings(today);
    Calendar.WeekStringsDistinct(today);
    if i != j {
      SamePrefix(days[i], days[j], createdAt);
    }
  }

  /** Buckets with distinct day strings of one length partition the sales:
      the bars add up to the total of the sales on any of the days. */
  lemma {:induction false} BucketsPartition(ss: seq<Sale>, trend: seq<DayTotal>)
    requires forall i :: 0 <= i < |trend| ==>
      trend[i].total == Seqs.Sum(ss, (s: Sale) => if trend[i].date <= s.createdAt then s.total else 0)
    requires forall i, j :: 0 <= i < j < |trend| ==> trend[i].date != trend[j].date
    requires forall i, j :: 0 <= i < |trend| && 0 <= j < |trend| ==> |trend[i].date| == |trend[j].date|
    ensures Seqs.Sum(trend, (e: DayTotal) => e.total)
      == Seqs.Sum(ss, (s: Sale) => if OnSomeDay(s.createdAt, trend) then s.total else 0)
    decreases |trend|
  {
    var all := (s: Sale) => if OnSomeDay(s.createdAt, trend) then s.total else 0;
    if trend == [] {
      Seqs.SumZero(ss, all);
    } else {
      var rest := trend[1..];
      assert forall i :: 0 <= i < |rest| ==> rest[i] == trend[i + 1];
      BucketsPartition(ss, rest);
      var day := trend[0].date;
      var first := (s: Sale) => if day <= s.createdAt then s.total else 0;
      var others := (s: Sale) => if OnSomeDay(s.createdAt, rest) then s.total else 0;
      forall k | 0 <= k < |ss|
        ensures all(ss[k]) == first(ss[k]) + others(ss[k])
      {
        var c := ss[k].createdAt;
        if OnSomeDay(c, rest) {
          var j :| 0 <= j < |rest| && rest[j].date <= c;
          assert trend[j + 1].date <= c;
        }
        if OnSomeDay(c, trend) && !(day <= c) {
          var j :| 0 <= j < |trend| && trend[j].date <= c;
          assert rest[j - 1].date <= c;
        }
      }
      Seqs.SumAdd(ss, first, others, all);
    }
  }

  /** The seven bars add up to the total of the sales made on one of the
      seven days; no sale is counted twice. */
  lemma WeekTotalIsWindowTotal(sales: seq<Sale>, today: Calendar.Date)
    requires Calendar.Valid(today) && today.year >= 1
    ensures
      var trend := WeeklyTrend(Some(sales), today);
      Seqs.Sum(trend, (e: DayTotal) => e.total)
        == Seqs.Sum(sales, (s: Sale) => if OnSomeDay(s.createdAt, trend) then s.total else 0)
  {
    Calendar.WeekStringsDistinct(today);
    BucketsPartition(sales, WeeklyTrend(Some(sales), today));
  }

  // The expense composition

  datatype Slice = Slice(name: string, value: int)

  /** The pie chart: "Operasional" then "Beli Produk", with the two
      category sums, adding up to the total expenses. */
  function PieData(sales: Option<seq<Sale>>, es: Option<seq<Expense>>): (r: seq<Slice>)
    ensures |r| == 2
    ensures r[0].name == OperationalName && r[1].name == ProductPurchaseName
    ensures r[0].value == Totals(sales, es).expOps && r[1].value == Totals(sales, es).expBuy
    ensures r[0].value + r[1].value == Totals(sales, es).totalExpenses
    ensures es.None? ==> r[0].value == 0 && r[1].value == 0
  {
    var t := Totals(sales, es);
    [Slice(OperationalName, t.expOps), Slice(ProductPurchaseName, t.expBuy)]
  }
}

=== FILE: email_check.dfy ===
/** The reset-password page (`src/pages/ResetPassword.tsx`): the email
    format check `/^[^\s@]+@[^\s@]+\.[^\s@]+$/` and what the submit handler
    does with the value it is given. The
    regular expression is given its meaning as a predicate, and a scanning
    check is proved to decide exactly that predicate. */
module EmailCheck {
  import Text

  /** A run of `[^\s@]` characters (possibly empty; the index bounds of
      `EmailPattern` make each run non-empty). */
  predicate Plain(t: string) {
    forall k :: 0 <= k < |t| ==> !Text.IsWhitespace(t[k]) && t[k] != '@'
  }

  /** What the regular expression matches: a non-empty local part, `@`, a
      non-empty run, a `.`, a non-empty run, each run free of `@` and
      whitespace, spanning the whole input. */
  predicate EmailPattern(s: string) {
    exists i, j ::
      && 0 < i && i + 1 < j && j + 1 < |s|
      && s[i] == '@' && s[j] == '.'
      && Plain(s[..i]) && Plain(s[i + 1..j]) && Plain(s[j + 1..])
  }

  /** `i` is the position of the only `@` of `s`. */
  predicate OnlyAt(s: string, i: int) {
    0 <= i < |s| && s[i] == '@' && forall k :: 0 <= k < |s| && k != i ==> s[k] != '@'
  }

  /** A dot strictly inside the domain part that follows the `@` at `i`,
      neither first nor last. */
  predicate InnerDot(s: string, i: int) {
    exists j :: 0 <= i + 1 < j < |s| - 1 && s[j] == '.'
  }

  /** The same language, stated by what a scan checks: no whitespace at all,
      exactly one `@`, not at the start, and a dot strictly inside the part
      after it. */
  predicate WellFormed(s: string) {
    !Text.HasWhitespace(s) && exists i :: 0 < i < |s| && OnlyAt(s, i) && InnerDot(s, i)
  }

  lemma PatternIsWellFormed(s: string)
    requires EmailPattern(s)
    ensures WellFormed(s)
  {
    var i, j :| 0 < i && i + 1 < j && j + 1 < |s| && s[i] == '@' && s[j] == '.'
      && Plain(s[..i]) && Plain(s[i + 1..j]) && Plain(s[j + 1..]);
    forall k | 0 <= k < |s|
      ensures !Text.IsWhitespace(s[k]) && (k != i ==> s[k] != '@')
    {
      if k < i {
        assert s[k] == s[..i][k];
      } else if i < k < j {
        assert s[k] == s[i + 1..j][k - i - 1];
      } else if j < k {
        assert s[k] == s[j + 1..][k - j - 1];
      }
    }
    assert OnlyAt(s, i);
    assert InnerDot(s, i);
  }

  lemma WellFormedIsPattern(s: string)
    requires WellFormed(s)
    ensures EmailPattern(s)
  {
    var i :| 0 < i < |s| && OnlyAt(s, i) && InnerDot(s, i);
    var j :| 0 <= i + 1 < j < |s| - 1 && s[j] == '.';
    PlainSlice(s, 0, i, i);
    PlainSlice(s, i + 1, j, i);
    PlainSlice(s, j + 1, |s|, i);
    assert s[j + 1..|s|] == s[j + 1..];
  }

  /** A stretch of `s` avoiding the position `at` of its only `@` is plain
      when `s` has no whitespace. */
  lemma PlainSlice(s: string, a: int, b: int, at: int)
    requires 0 <= a <= b <= |s|
    requires !Text.HasWhitespace(s) && OnlyAt(s, at)
    requires at < a || b <= at
    ensures Plain(s[a..b])
  {
    var t := s[a..b];
    forall k | 0 <= k < |t|
      ensures !Text.IsWhitespace(t[k]) && t[k] != '@'
    {
      assert t[k] == s[a + k];
    }
  }

  /** The regular expression and the scan agree on every input. */
  lemma PatternIffWellFormed(s: string)
    ensures EmailPattern(s) <==> WellFormed(s)
  {
    if EmailPattern(s) {
      PatternIsWellFormed(s);
    }
    if WellFormed(s) {
      WellFormedIsPattern(s);
    }
  }

  /** `emailRegex.test(email)`, as one scan for whitespace and `@`, then one
      for an inner dot. */
  method IsValidEmail(s: string) returns (ok: bool)
    ensures ok <==> EmailPattern(s)
  {
    PatternIffWellFormed(s);
    var at := -1;
    var i := 0;
    while i < |s|
      invariant 0 <= i <= |s|
      invariant forall k :: 0 <= k < i ==> !Text.IsWhitespace(s[k])
      invariant at == -1 ==> forall k :: 0 <= k < i ==> s[k] != '@'
      invariant at != -1 ==> 0 <= at < i && s[at] == '@' && forall k :: 0 <= k < i && k != at ==> s[k] != '@'
    {
      if Text.IsWhitespace(s[i]) {
        return false;
      }
      if s[i] == '@' {
        if at != -1 {
          assert !OnlyAt(s, at) && !OnlyAt(s, i);
          return false;
        }
        at := i;
      }
      i := i + 1;
    }
    if at <= 0 {
      assert forall k :: 0 < k < |s| && OnlyAt(s, k) ==> k == at;
      return false;
    }
    assert OnlyAt(s, at);
    var j := at + 2;
    while j < |s| - 1
      invariant at + 2 <= j
      invariant forall k :: at + 1 < k < j && k < |s| - 1 ==> s[k] != '.'
    {
      if s[j] == '.' {
        assert InnerDot(s, at);
        return true;
      }
      j := j + 1;
    }
    assert !InnerDot(s, at);
    return false;
  }

  /** Any whitespace anywhere makes the address invalid. */
  lemma WhitespaceRejected(s: string, k: int)
    requires 0 <= k < |s| && Text.IsWhitespace(s[k])
    ensures !EmailPattern(s)
  {
    PatternIffWellFormed(s);
  }

  /** An address with no `@`, or with two, is invalid. */
  lemma AtCountRejected(s: string)
    requires (forall k :: 0 <= k < |s| ==> s[k] != '@')
      || (exists a, b :: 0 <= a < b < |s| && s[a] == '@' && s[b] == '@')
    ensures !EmailPattern(s)
  {
    PatternIffWellFormed(s);
  }

  lemma Accepted()
    ensures EmailPattern("a@b.c")
  {
    var s := "a@b.c";
    PatternIffWellFormed(s);
    assert OnlyAt(s, 1) && InnerDot(s, 1) by {
      assert s[3] == '.';
    }
  }

  lemma TrailingDotRejected()
    ensures !EmailPattern("a@b.")
  {
    PatternIffWellFormed("a@b.");
  }

  lemma LeadingDotRejected()
    ensures !EmailPattern("a@.b")
  {
    PatternIffWellFormed("a@.b");
  }

  const InvalidFormat := "Format email tidak valid"

  /** The state after `handleReset`: whether the success view is shown, and
      the error line. */
  datatype ResetState = ResetState(success: bool, error: string)

  /** `handleReset`: the error is cleared; a valid address shows success, an
      invalid one sets the format error and leaves success off. */
  method HandleReset(email: string) returns (st: ResetState)
    ensures st.success <==> EmailPattern(email)
    ensures st.success ==> st.error == ""
    ensures !st.success ==> st.error == InvalidFormat
  {
    var valid := IsValidEmail(email);
    if valid {
      st := ResetState(true, "");
    } else {
      st := ResetState(false, InvalidFormat);
    }
  }
}

=== FILE: expense_journal.dfy ===
/** The expense page (`src/pages/Pengeluaran.tsx`): the expense dialog, the
    insert it performs, and the name search. */
module ExpenseJournal {
  import opened Wrappers
  import opened Ledger
  import Seqs
  import Text

  /** The expense dialog. The amount is a text box: `None` is an empty box.
      The category is chosen from the two options the select offers. */
  datatype ExpenseForm = ExpenseForm(
    name: string, amount: Option<int>, category: ExpenseCategory, note: string, expenseDate: string)

  /** The form as the page mounts it and as a save resets it: empty fields,
      category "Operasional", the date of that moment. Opening or closing the
      dialog does not reset it, so a cancelled entry is shown again. */
  function NewExpenseForm(today: string): (f: ExpenseForm)
    ensures f.name == "" && f.amount.None? && f.note == ""
    ensures CategoryName(f.category) == OperationalName
    ensures f.expenseDate == today
  {
    ExpenseForm("", None, Operational, "", today)
  }

  /** The save button is enabled when a name is entered and the amount box is
      not empty. A zero or negative amount is accepted. */
  predicate CanSaveExpense(f: ExpenseForm) {
    f.name != "" && f.amount.Some?
  }

  /** A form fresh from mount or from a save cannot be saved. */
  lemma NewExpenseFormBlocked(today: string)
    ensures !CanSaveExpense(NewExpenseForm(today))
  {
  }

  /** Saving the dialog appends one expense with a fresh id carrying the
      form's fields as entered. */
  function AddExpense(l: Ledger, f: ExpenseForm): (r: Ledger)
    ensures r.products == l.products && r.sales == l.sales && r.saleItems == l.saleItems
    ensures |r.expenses| == |l.expenses| + 1 && r.expenses[..|l.expenses|] == l.expenses
    ensures
      var e := r.expenses[|l.expenses|];
      && (forall i :: 0 <= i < |l.expenses| ==> l.expenses[i].id != e.id)
      && e.name == f.name && e.amount == NumberOf(f.amount)
      && IsKnownCategory(e.category) && e.category == CategoryName(f.category)
      && e.note == f.note && e.expenseDate == f.expenseDate
  {
    var e := Expense(NewExpenseId(l.expenses), f.name, NumberOf(f.amount), CategoryName(f.category), f.note, f.expenseDate);
    assert (l.expenses + [e])[..|l.expenses|] == l.expenses;
    l.(expenses := l.expenses + [e])
  }

  /** Saving an expense keeps the ledger consistent: its category is one of
      the two known ones and its id is fresh. */
  lemma AddExpensePreservesValid(l: Ledger, f: ExpenseForm)
    requires Valid(l)
    ensures Valid(AddExpense(l, f))
  {
    var r := AddExpense(l, f);
    assert r.expenses == l.expenses + [r.expenses[|l.expenses|]];
  }

  /** The search box: expenses whose lower-cased name contains the
      lower-cased query, in list order. */
  function SearchExpenses(es: seq<Expense>, query: string): (r: seq<Expense>)
    ensures forall e :: e in r <==> e in es && Text.MatchesQuery(e.name, query)
    ensures forall e: Expense :: Text.MatchesQuery(e.name, query) ==> multiset(r)[e] == multiset(es)[e]
    ensures Seqs.IsSubsequence(r, es)
  {
    Seqs.Filter(es, (e: Expense) => Text.MatchesQuery(e.name, query))
  }

  /** An empty search box lists every expense. */
  lemma {:induction false} SearchExpensesEmptyQuery(es: seq<Expense>)
    ensures SearchExpenses(es, "") == es
  {
    forall i | 0 <= i < |es|
      ensures Text.MatchesQuery(es[i].name, "")
    {
      Text.EmptyQueryMatches(es[i].name);
    }
    Seqs.FilterKeepAll(es, (e: Expense) => Text.MatchesQuery(e.name, ""));
  }
}

=== FILE: ledger.dfy ===
/** The store's four tables (products, sales, sale_items, expenses) as one
    immutable ledger value, with the lookups, fresh ids and consistency
    invariant that the page operations share. */
module Ledger {
  import opened Wrappers
  import Seqs

  /** Row ids. The database generates uuids; here a new row takes one more
      than the largest id of its table, which is fresh. */
  type Id = nat

  datatype Product = Product(id: Id, name: string, buyPrice: int, sellPrice: int, stock: int)

  datatype Sale = Sale(id: Id, customerName: string, total: int, cost: int, profit: int, createdAt: string)

  /** One line of a sale, with the product's name and prices as they were at
      checkout. */
  datatype SaleItem = SaleItem(
    saleId: Id, productId: Id, productName: string,
    qty: int, buyPrice: int, sellPrice: int, subtotal: int)

  /** The database keeps the category as free text. */
  datatype Expense = Expense(id: Id, name: string, amount: int, category: string, note: string, expenseDate: string)

  datatype Ledger = Ledger(products: seq<Product>, sales: seq<Sale>, saleItems: seq<SaleItem>, expenses: seq<Expense>)

  const EmptyLedger := Ledger([], [], [], [])

  /** The two categories the expense form offers and the reports add up. */
  datatype ExpenseCategory = Operational | ProductPurchase

  const OperationalName := "Operasional"
  const ProductPurchaseName := "Beli Produk"

  function CategoryName(c: ExpenseCategory): (s: string)
    ensures s == OperationalName || s == ProductPurchaseName
    ensures s == OperationalName <==> c.Operational?
  {
    match c
    case Operational => OperationalName
    case ProductPurchase => ProductPurchaseName
  }

  predicate IsKnownCategory(s: string) {
    s == OperationalName || s == ProductPurchaseName
  }

  /** `Number(field)` of a numeric text box; an empty box reads as 0. */
  function NumberOf(field: Option<int>): int {
    field.GetOr(0)
  }

  // Lookups

  /** `products.find((p) => p.id === id)`: the first product with that id. */
  function FindProduct(ps: seq<Product>, id: Id): (r: Option<Product>)
    ensures r.None? <==> forall i :: 0 <= i < |ps| ==> ps[i].id != id
    ensures r.Some? ==> r.value.id == id && r.value in ps
    decreases |ps|
  {
    if ps == [] then None
    else if ps[0].id == id then Some(ps[0])
    else
      assert forall i :: 1 <= i < |ps| ==> ps[i] == ps[1..][i - 1];
      FindProduct(ps[1..], id)
  }

  predicate UniqueProductIds(ps: seq<Product>) {
    forall i, j :: 0 <= i < j < |ps| ==> ps[i].id != ps[j].id
  }

  predicate UniqueSaleIds(ss: seq<Sale>) {
    forall i, j :: 0 <= i < j < |ss| ==> ss[i].id != ss[j].id
  }

  predicate UniqueExpenseIds(es: seq<Expense>) {
    forall i, j :: 0 <= i < j < |es| ==> es[i].id != es[j].id
  }

  /** With unique ids the lookup finds the one row that has the id. */
  lemma {:induction false} FindUniqueProduct(ps: seq<Product>, k: int)
    requires UniqueProductIds(ps) && 0 <= k < |ps|
    ensures FindProduct(ps, ps[k].id) == Some(ps[k])
    decreases |ps|
  {
    if k > 0 {
      assert ps[0].id != ps[k].id;
      assert UniqueProductIds(ps[1..]) by {
        forall i, j | 0 <= i < j < |ps[1..]|
          ensures ps[1..][i].id != ps[1..][j].id
        {
          assert ps[1..][i] == ps[i + 1] && ps[1..][j] == ps[j + 1];
        }
      }
      FindUniqueProduct(ps[1..], k - 1);
    }
  }

  // Fresh ids

  function NewProductId(ps: seq<Product>): (id: Id)
    ensures forall i :: 0 <= i < |ps| ==> ps[i].id < id
  {
    Seqs.MaxKey(ps, (p: Product) => p.id) + 1
  }

  function NewSaleId(ss: seq<Sale>): (id: Id)
    ensures forall i :: 0 <= i < |ss| ==> ss[i].id < id
  {
    Seqs.MaxKey(ss, (s: Sale) => s.id) + 1
  }

  function NewExpenseId(es: seq<Expense>): (id: Id)
    ensures forall i :: 0 <= i < |es| ==> es[i].id < id
  {
    Seqs.MaxKey(es, (e: Expense) => e.id) + 1
  }

  // Row updates, as `update(...).eq("id", id)` does them: every row with the id

  function SetStock(ps: seq<Product>, id: Id, stock: int): (r: seq<Product>)
    ensures |r| == |ps|
    ensures forall i :: 0 <= i < |ps| ==>
      r[i] == if ps[i].id == id then ps[i].(stock := stock) else ps[i]
  {
    seq(|ps|, i requires 0 <= i < |ps| => if ps[i].id == id then ps[i].(stock := stock) else ps[i])
  }

  // Sale totals as the sale_items table records them

  /** The sum of the subtotals of the items of sale `sid`. */
  function ItemsTotal(items: seq<SaleItem>, sid: Id): int {
    Seqs.Sum(items, (it: SaleItem) => if it.saleId == sid then it.subtotal else 0)
  }

  /** The buy-price cost of the items of sale `sid`. */
  function ItemsCost(items: seq<SaleItem>, sid: Id): int {
    Seqs.Sum(items, (it: SaleItem) => if it.saleId == sid then it.buyPrice * it.qty else 0)
  }

  predicate HasSale(ss: seq<Sale>, sid: Id) {
    exists j :: 0 <= j < |ss| && ss[j].id == sid
  }

  /** The consistency the page operations keep between the four tables:
      unique ids, expense categories from the two the application knows,
      every sale's profit equal to total minus cost, every item priced as
      sell price times quantity and owned by a recorded sale, and every sale's
      total and cost equal to the sums over its items. */
  predicate Valid(l: Ledger) {
    && UniqueProductIds(l.products)
    && UniqueSaleIds(l.sales)
    && UniqueExpenseIds(l.expenses)
    && (forall i :: 0 <= i < |l.expenses| ==> IsKnownCategory(l.expenses[i].category))
    && (forall i :: 0 <= i < |l.sales| ==> l.sales[i].profit == l.sales[i].total - l.sales[i].cost)
    && (forall i :: 0 <= i < |l.saleItems| ==>
          l.saleItems[i].subtotal == l.saleItems[i].sellPrice * l.saleItems[i].qty)
    && (forall i :: 0 <= i < |l.saleItems| ==> HasSale(l.sales, l.saleItems[i].saleId))
    && (forall i :: 0 <= i < |l.sales| ==>
          ItemsTotal(l.saleItems, l.sales[i].id) == l.sales[i].total
          && ItemsCost(l.saleItems, l.sales[i].id) == l.sales[i].cost)
  }

  /** The empty ledger is consistent; with the preservation lemmas of each
      page, so is every ledger the pages build from it. */
  lemma EmptyLedgerValid()
    ensures Valid(EmptyLedger)
  {
  }
}

=== FILE: login.dfy ===
/** The login page (`src/pages/Login.tsx`): the credentials derived from the
    stored store profile, and the comparison `handleLogin` makes. */
module Login {
  import opened Wrappers
  import Seqs
  import Text

  /** What the `storeProfile` key of local storage holds: nothing (or an
      empty string); text on which reading `name` throws, because it does
      not parse or parses to `null`; or a profile with its name and phone. A
      missing field reads as "", so JSON of another kind (a number, a string,
      an array) is a profile with both fields empty. */
  datatype StoredProfile = Absent | Malformed | Profile(name: string, phone: string)

  const DefaultUsername := "camela"
  const DefaultPassword := "321"
  const WrongCredentials := "Email atau password salah"
  const LoginFailure := "Terjadi kesalahan saat login"

  datatype Credentials = Credentials(username: string, password: string)

  /** The username of a complete profile: its name lower-cased with every
      whitespace character removed. */
  function UsernameFromName(name: string): (u: string)
    ensures !Text.HasWhitespace(u)
    ensures |u| <= |name|
    ensures Seqs.IsSubsequence(u, Text.Lower(name))
    ensures forall c :: !Text.IsWhitespace(c) ==> multiset(u)[c] == multiset(Text.Lower(name))[c]
  {
    Text.RemoveWhitespace(Text.Lower(name))
  }

  /** The expected credentials: "camela" / "321" unless the profile has a
      name and a phone, in which case the username comes from the name. The
      password is "321" in every case. A profile that cannot be read stops
      the login with the page's generic error. */
  function CredentialsOf(p: StoredProfile): (r: Result<Credentials, string>)
    ensures r.Err? <==> p.Malformed?
    ensures r.Err? ==> r.error == LoginFailure
    ensures r.Ok? ==> r.value.password == DefaultPassword
    ensures r.Ok? && p.Profile? && p.name != "" && p.phone != "" ==> r.value.username == UsernameFromName(p.name)
    ensures r.Ok? && !(p.Profile? && p.name != "" && p.phone != "") ==> r.value.username == DefaultUsername
  {
    match p
    case Absent => Ok(Credentials(DefaultUsername, DefaultPassword))
    case Malformed => Err(LoginFailure)
    case Profile(name, phone) =>
      if name != "" && phone != "" then Ok(Credentials(UsernameFromName(name), DefaultPassword))
      else Ok(Credentials(DefaultUsername, DefaultPassword))
  }

  datatype LoginOutcome = LoggedIn(username: string) | LoginError(message: string)

  /** `handleLogin`: succeeds exactly when both entered values equal the
      expected credentials; otherwise reports wrong credentials, or the
      generic error when the profile cannot be read. */
  function HandleLogin(p: StoredProfile, email: string, password: string): (o: LoginOutcome)
    ensures o.LoggedIn? <==> (
      && CredentialsOf(p).Ok?
      && email == CredentialsOf(p).value.username
      && password == CredentialsOf(p).value.password)
    ensures o.LoggedIn? ==> o.username == email
    ensures o.LoginError? && p.Malformed? ==> o.message == LoginFailure
    ensures o.LoginError? && !p.Malformed? ==> o.message == WrongCredentials
  {
    match CredentialsOf(p)
    case Err(msg) => LoginError(msg)
    case Ok(c) =>
      if email == c.username && password == c.password then LoggedIn(c.username)
      else LoginError(WrongCredentials)
  }

  /** Only the password "321" ever logs in. */
  lemma OnlyDefaultPassword(p: StoredProfile, email: string, password: string)
    ensures HandleLogin(p, email, password).LoggedIn? ==> password == DefaultPassword
  {
  }

  /** Without a complete profile, exactly "camela" / "321" logs in. */
  lemma DefaultCredentialsLogin(p: StoredProfile, email: string, password: string)
    requires p.Absent? || (p.Profile? && (p.name == "" || p.phone == ""))
    ensures HandleLogin(p, email, password).LoggedIn? <==> email == "camela" && password == "321"
  {
  }

  /** Each character of the derived username is one that lower-casing
      leaves alone. */
  lemma UsernameIsLowerCase(name: string)
    ensures Text.Lower(UsernameFromName(name)) == UsernameFromName(name)
  {
    var low := Text.Lower(name);
    var u := UsernameFromName(name);
    forall i | 0 <= i < |u|
      ensures Text.LowerChar(u[i]) == u[i]
    {
      assert u[i] in u;
      var k :| 0 <= k < |low| && low[k] == u[i];
      assert low[k] == Text.LowerChar(name[k]);
    }
  }

  /** With a complete profile whose name holds a space, typing the name as
      shown is refused: only the squeezed lower-case form logs in. */
  lemma NameAsTypedRefused(name: string, phone: string, password: string)
    requires name != "" && phone != "" && Text.HasWhitespace(name)
    ensures HandleLogin(Profile(name, phone), name, password) == LoginError(WrongCredentials)
    ensures HandleLogin(Profile(name, phone), UsernameFromName(name), DefaultPassword).LoggedIn?
  {
    assert UsernameFromName(name) != name;
  }
}

=== FILE: report.dfy ===
/** The financial report page (`src/pages/Laporan.tsx`): the inclusive
    date-range filters, the seven report totals, and the export button's
    guard against an empty selection. Dates are `YYYY-MM-DD` strings compared
    as strings, as the page compares them. */
module Report {
  import opened Wrappers
  import opened Ledger
  import Seqs
  import Text

  /** `startDate <= d && d <= endDate` on strings. */
  predicate InRange(d: string, start: string, end: string) {
    Text.LexLe(start, d) && Text.LexLe(d, end)
  }

  /** A sale's day: its `created_at` up to the `T`. */
  function SaleDay(s: Sale): (r: string)
    ensures r <= s.createdAt && 'T' !in r
    ensures |r| < |s.createdAt| ==> s.createdAt[|r|] == 'T'
  {
    Text.BeforeT(s.createdAt)
  }

  predicate SaleInRange(s: Sale, start: string, end: string) {
    InRange(SaleDay(s), start, end)
  }

  predicate ExpenseInRange(e: Expense, start: string, end: string) {
    InRange(e.expenseDate, start, end)
  }

  /** `filteredSales`: the sales of the range, in list order. */
  function ReportedSales(sales: seq<Sale>, start: string, end: string): (r: seq<Sale>)
    ensures forall s :: s in r <==> s in sales && SaleInRange(s, start, end)
    ensures forall s: Sale :: SaleInRange(s, start, end) ==> multiset(r)[s] == multiset(sales)[s]
    ensures Seqs.IsSubsequence(r, sales)
  {
    Seqs.Filter(sales, (s: Sale) => SaleInRange(s, start, end))
  }

  /** `filteredExpenses`: the expenses of the range, in list order. */
  function ReportedExpenses(es: seq<Expense>, start: string, end: string): (r: seq<Expense>)
    ensures forall e :: e in r <==> e in es && ExpenseInRange(e, start, end)
    ensures forall e: Expense :: ExpenseInRange(e, start, end) ==> multiset(r)[e] == multiset(es)[e]
    ensures Seqs.IsSubsequence(r, es)
  {
    Seqs.Filter(es, (e: Expense) => ExpenseInRange(e, start, end))
  }

  // Reference sums: one pass over the whole table, counting only the rows
  // of the range (and of the category).

  function RangeRevenue(sales: seq<Sale>, start: string, end: string): int {
    Seqs.Sum(sales, (s: Sale) => if SaleInRange(s, start, end) then s.total else 0)
  }

  function RangeCost(sales: seq<Sale>, start: string, end: string): int {
    Seqs.Sum(sales, (s: Sale) => if SaleInRange(s, start, end) then s.cost else 0)
  }

  function RangeProfit(sales: seq<Sale>, start: string, end: string): int {
    Seqs.Sum(sales, (s: Sale) => if SaleInRange(s, start, end) then s.profit else 0)
  }

  function RangeCategory(es: seq<Expense>, category: string, start: string, end: string): int {
    Seqs.Sum(es, (e: Expense) => if ExpenseInRange(e, start, end) && e.category == category then e.amount else 0)
  }

  function RangeExpenses(es: seq<Expense>, start: string, end: string): int {
    Seqs.Sum(es, (e: Expense) => if ExpenseInRange(e, start, end) then e.amount else 0)
  }

  /** The seven figures of the report. */
  datatype Summary = Summary(
    revenue: int, cost: int, grossProfit: int,
    expOps: int, expBuy: int, totalExpense: int, netProfit: int)

  const ZeroSummary := Summary(0, 0, 0, 0, 0, 0, 0)

  /** The report totals as the page computes them: filter, then reduce. Each
      equals the one-pass sum over the whole table; the two expense figures
      count only the exact category names; net profit is revenue minus total
      expense. */
  function Summarize(sales: seq<Sale>, es: seq<Expense>, start: string, end: string): (r: Summary)
    ensures r.revenue == RangeRevenue(sales, start, end)
    ensures r.cost == RangeCost(sales, start, end)
    ensures r.grossProfit == RangeProfit(sales, start, end)
    ensures r.expOps == RangeCategory(es, OperationalName, start, end)
    ensures r.expBuy == RangeCategory(es, ProductPurchaseName, start, end)
    ensures r.totalExpense == r.expOps + r.expBuy
    ensures r.netProfit == RangeRevenue(sales, start, end) - r.totalExpense
  {
    var fs := ReportedSales(sales, start, end);
    var fe := ReportedExpenses(es, start, end);
    var revenue := Seqs.Sum(fs, (s: Sale) => s.total);
    var cost := Seqs.Sum(fs, (s: Sale) => s.cost);
    var profit := Seqs.Sum(fs, (s: Sale) => s.profit);
    var ops := CategorySum(fe, OperationalName);
    var buy := CategorySum(fe, ProductPurchaseName);
    SalesSums(sales, start, end);
    CategorySumInRange(es, OperationalName, start, end);
    CategorySumInRange(es, ProductPurchaseName, start, end);
    Summary(revenue, cost, profit, ops, buy, ops + buy, revenue - (ops + buy))
  }

  /** `es.filter((e) => e.category === c).reduce((s, r) => s + r.amount, 0)`. */
  function CategorySum(es: seq<Expense>, category: string): int {
    Seqs.Sum(Seqs.Filter(es, (e: Expense) => e.category == category), (e: Expense) => e.amount)
  }

  /** A category sum is the one-pass sum of the amounts of that category. */
  lemma CategorySumMasked(es: seq<Expense>, category: string)
    ensures CategorySum(es, category) == Seqs.Sum(es, (e: Expense) => if e.category == category then e.amount else 0)
  {
    Seqs.SumFilter(es, (e: Expense) => e.category == category, (e: Expense) => e.amount,
      (e: Expense) => if e.category == category then e.amount else 0);
  }

  /** A one-day range (start and end both `day`) holds exactly that day. */
  lemma SingleDayRange(d: string, day: string)
    ensures InRange(d, day, day) <==> d == day
  {
    if d == day {
      Text.LexLeReflexive(d);
    }
    if InRange(d, day, day) {
      Text.LexLeAntisymmetric(d, day);
    }
  }

  lemma SalesSums(sales: seq<Sale>, start: string, end: string)
    ensures Seqs.Sum(ReportedSales(sales, start, end), (s: Sale) => s.total) == RangeRevenue(sales, start, end)
    ensures Seqs.Sum(ReportedSales(sales, start, end), (s: Sale) => s.cost) == RangeCost(sales, start, end)
    ensures Seqs.Sum(ReportedSales(sales, start, end), (s: Sale) => s.profit) == RangeProfit(sales, start, end)
  {
    var keep := (s: Sale) => SaleInRange(s, start, end);
    Seqs.SumFilter(sales, keep, (s: Sale) => s.total, (s: Sale) => if SaleInRange(s, start, end) then s.total else 0);
    Seqs.SumFilter(sales, keep, (s: Sale) => s.cost, (s: Sale) => if SaleInRange(s, start, end) then s.cost else 0);
    Seqs.SumFilter(sales, keep, (s: Sale) => s.profit, (s: Sale) => if SaleInRange(s, start, end) then s.profit else 0);
  }

  lemma CategorySumInRange(es: seq<Expense>, category: string, start: string, end: string)
    ensures CategorySum(ReportedExpenses(es, start, end), category) == RangeCategory(es, category, start, end)
  {
    var isCat := (e: Expense) => e.category == category;
    var g1 := (e: Expense) => if e.category == category then e.amount else 0;
    Seqs.SumFilter(ReportedExpenses(es, start, end), isCat, (e: Expense) => e.amount, g1);
    Seqs.SumFilter(es, (e: Expense) => ExpenseInRange(e, start, end), g1,
      (e: Expense) => if ExpenseInRange(e, start, end) && e.category == category then e.amount else 0);
  }

  /** With every sale's profit equal to total minus cost, as checkout records
      it, the report's gross profit is revenue minus cost. */
  lemma GrossProfitBalanced(sales: seq<Sale>, es: seq<Expense>, start: string, end: string)
    requires forall i :: 0 <= i < |sales| ==> sales[i].profit == sales[i].total - sales[i].cost
    ensures
      var r := Summarize(sales, es, start, end);
      r.grossProfit == r.revenue - r.cost
  {
    var fr := (s: Sale) => if SaleInRange(s, start, end) then s.total else 0;
    var fc := (s: Sale) => if SaleInRange(s, start, end) then -s.cost else 0;
    var fp := (s: Sale) => if SaleInRange(s, start, end) then s.profit else 0;
    Seqs.SumAdd(sales, fr, fc, fp);
    NegatedSum(sales, (s: Sale) => if SaleInRange(s, start, end) then s.cost else 0, fc);
  }

  lemma {:induction false} NegatedSum<T>(xs: seq<T>, f: T -> int, g: T -> int)
    requires forall i :: 0 <= i < |xs| ==> g(xs[i]) == -f(xs[i])
    ensures Seqs.Sum(xs, g) == -Seqs.Sum(xs, f)
    decreases |xs|
  {
    if xs != [] {
      NegatedSum(xs[1..], f, g);
    }
  }

  /** Every consistent ledger gives a report whose gross profit is revenue
      minus cost, and whose net profit is gross profit plus cost minus total
      expense: net profit is revenue-based, not gross-profit-based. */
  lemma SummaryOfValidLedger(l: Ledger, start: string, end: string)
    requires Valid(l)
    ensures
      var r := Summarize(l.sales, l.expenses, start, end);
      && r.grossProfit == r.revenue - r.cost
      && r.netProfit == r.grossProfit + r.cost - r.totalExpense
      && r.totalExpense == RangeExpenses(l.expenses, start, end)
  {
    GrossProfitBalanced(l.sales, l.expenses, start, end);
    KnownCategoriesTotal(l.expenses, start, end);
  }

  /** When every expense carries one of the two known categories, the total
      expense is the sum of every expense of the range. */
  lemma KnownCategoriesTotal(es: seq<Expense>, start: string, end: string)
    requires forall i :: 0 <= i < |es| ==> IsKnownCategory(es[i].category)
    ensures Summarize([], es, start, end).totalExpense == RangeExpenses(es, start, end)
  {
    var fo := (e: Expense) => if ExpenseInRange(e, start, end) && e.category == OperationalName then e.amount else 0;
    var fb := (e: Expense) => if ExpenseInRange(e, start, end) && e.category == ProductPurchaseName then e.amount else 0;
    var fa := (e: Expense) => if ExpenseInRange(e, start, end) then e.amount else 0;
    Seqs.SumAdd(es, fo, fb, fa);
  }

  /** An expense with a category other than the two known names changes no
      figure of the report. */
  lemma UnknownCategoryIgnored(sales: seq<Sale>, es: seq<Expense>, e: Expense, start: string, end: string)
    requires !IsKnownCategory(e.category)
    ensures Summarize(sales, es + [e], start, end) == Summarize(sales, es, start, end)
  {
    var fo := (x: Expense) => if ExpenseInRange(x, start, end) && x.category == OperationalName then x.amount else 0;
    var fb := (x: Expense) => if ExpenseInRange(x, start, end) && x.category == ProductPurchaseName then x.amount else 0;
    Seqs.SumAppend(es, [e], fo);
    Seqs.SumAppend(es, [e], fb);
  }

  /** Only a range that is not reversed can hold a date. */
  lemma InRangeOrdered(d: string, start: string, end: string)
    requires InRange(d, start, end)
    ensures Text.LexLe(start, end)
  {
    Text.LexLeTransitive(start, d, end);
  }

  /** A reversed range (start after end) reports nothing: every figure is 0. */
  lemma ReversedRangeIsZero(sales: seq<Sale>, es: seq<Expense>, start: string, end: string)
    requires !Text.LexLe(start, end)
    ensures ReportedSales(sales, start, end) == []
    ensures ReportedExpenses(es, start, end) == []
    ensures Summarize(sales, es, start, end) == ZeroSummary
  {
    forall i | 0 <= i < |sales|
      ensures !SaleInRange(sales[i], start, end)
    {
      if SaleInRange(sales[i], start, end) {
        InRangeOrdered(SaleDay(sales[i]), start, end);
      }
    }
    forall i | 0 <= i < |es|
      ensures !ExpenseInRange(es[i], start, end)
    {
      if ExpenseInRange(es[i], start, end) {
        InRangeOrdered(es[i].expenseDate, start, end);
      }
    }
    Seqs.FilterKeepNone(sales, (s: Sale) => SaleInRange(s, start, end));
    Seqs.FilterKeepNone(es, (e: Expense) => ExpenseInRange(e, start, end));
  }

  // The export dialog

  /** The four data sets the export dialog offers, in its order. */
  datatype ExportKey = Stock | SalesData | ExpensesData | Finance

  function KeyName(k: ExportKey): string {
    match k
    case Stock => "stok"
    case SalesData => "penjualan"
    case ExpensesData => "pengeluaran"
    case Finance => "keuangan"
  }

  /** A box's place in the dialog's state object, which is the order
      `Object.entries` lists the boxes in. */
  function KeyIndex(k: ExportKey): nat {
    match k
    case Stock => 0
    case SalesData => 1
    case ExpensesData => 2
    case Finance => 3
  }

  /** Different boxes export differently named data sets. */
  lemma KeyNameInjective(a: ExportKey, b: ExportKey)
    ensures KeyName(a) == KeyName(b) <==> a == b
  {
  }

  /** The four check boxes, all clear when the page opens. */
  datatype ExportOptions = ExportOptions(stok: bool, penjualan: bool, pengeluaran: bool, keuangan: bool)

  const NoExportOptions := ExportOptions(false, false, false, false)

  function IsChecked(o: ExportOptions, k: ExportKey): bool {
    match k
    case Stock => o.stok
    case SalesData => o.penjualan
    case ExpensesData => o.pengeluaran
    case Finance => o.keuangan
  }

  /** `toggleExport(key)`: flips one box. */
  function Toggle(o: ExportOptions, k: ExportKey): (r: ExportOptions)
    ensures IsChecked(r, k) == !IsChecked(o, k)
    ensures forall j :: j != k ==> IsChecked(r, j) == IsChecked(o, j)
  {
    match k
    case Stock => o.(stok := !o.stok)
    case SalesData => o.(penjualan := !o.penjualan)
    case ExpensesData => o.(pengeluaran := !o.pengeluaran)
    case Finance => o.(keuangan := !o.keuangan)
  }

  /** Flipping a box twice restores the options. */
  lemma ToggleTwice(o: ExportOptions, k: ExportKey)
    ensures Toggle(Toggle(o, k), k) == o
  {
  }

  /** The checked boxes, in the dialog's order. */
  function CheckedBoxes(o: ExportOptions): (ks: seq<ExportKey>)
    ensures |ks| <= 4
    ensures forall k :: k in ks <==> IsChecked(o, k)
    ensures forall i, j :: 0 <= i < j < |ks| ==> KeyIndex(ks[i]) < KeyIndex(ks[j])
  {
    (if o.stok then [Stock] else [])
      + (if o.penjualan then [SalesData] else [])
      + (if o.pengeluaran then [ExpensesData] else [])
      + (if o.keuangan then [Finance] else [])
  }

  /** The names of the checked boxes (`Object.entries(…).filter(…).map(…)`):
      the i-th name is that of the i-th checked box in the dialog's order, so
      each checked data set is named once and nothing else is. */
  function SelectedKeys(o: ExportOptions): (r: seq<string>)
    ensures |r| == |CheckedBoxes(o)| && |r| <= 4
    ensures forall i :: 0 <= i < |r| ==> r[i] == KeyName(CheckedBoxes(o)[i])
    ensures forall k :: KeyName(k) in r <==> IsChecked(o, k)
    ensures forall i, j :: 0 <= i < j < |r| ==> r[i] != r[j]
    ensures r == [] <==> forall k :: !IsChecked(o, k)
  {
    var ks := CheckedBoxes(o);
    var r := seq(|ks|, i requires 0 <= i < |ks| => KeyName(ks[i]));
    NamesOfBoxes(o, ks, r);
    r
  }

  /** Naming ordered distinct boxes gives distinct names, one per box. */
  lemma NamesOfBoxes(o: ExportOptions, ks: seq<ExportKey>, r: seq<string>)
    requires forall k :: k in ks <==> IsChecked(o, k)
    requires forall i, j :: 0 <= i < j < |ks| ==> KeyIndex(ks[i]) < KeyIndex(ks[j])
    requires |r| == |ks| && forall i :: 0 <= i < |r| ==> r[i] == KeyName(ks[i])
    ensures forall k :: KeyName(k) in r <==> IsChecked(o, k)
    ensures forall i, j :: 0 <= i < j < |r| ==> r[i] != r[j]
    ensures r == [] <==> forall k :: !IsChecked(o, k)
  {
    forall i, j | 0 <= i < j < |r|
      ensures r[i] != r[j]
    {
      KeyNameInjective(ks[i], ks[j]);
    }
    forall k
      ensures KeyName(k) in r <==> IsChecked(o, k)
    {
      if IsChecked(o, k) {
        var i :| 0 <= i < |ks| && ks[i] == k;
        assert r[i] == KeyName(k);
      } else if KeyName(k) in r {
        var i :| 0 <= i < |r| && r[i] == KeyName(k);
        KeyNameInjective(ks[i], k);
      }
    }
    if r != [] {
      assert ks[0] in ks;
    }
  }

  const NothingSelected := "Pilih minimal satu data untuk di-export"

  /** `handleExport`'s guard: with no box checked the export stops with an
      error and produces nothing; otherwise it proceeds with the checked
      data sets. */
  function HandleExport(o: ExportOptions): (r: Result<seq<string>, string>)
    ensures r.Err? <==> forall k :: !IsChecked(o, k)
    ensures r.Err? ==> r.error == NothingSelected
    ensures r.Ok? ==> |r.value| > 0 && forall k :: KeyName(k) in r.value <==> IsChecked(o, k)
    ensures r.Ok? ==> |r.value| == |CheckedBoxes(o)|
    ensures r.Ok? ==> forall i :: 0 <= i < |r.value| ==> r.value[i] == KeyName(CheckedBoxes(o)[i])
    ensures r.Ok? ==> forall i, j :: 0 <= i < j < |r.value| ==> r.value[i] != r.value[j]
  {
    var selected := SelectedKeys(o);
    if |selected| == 0 then Err(NothingSelected) else Ok(selected)
  }

  /** Checking one box of a fresh dialog is enough to export that data set. */
  lemma SingleExport(k: ExportKey)
    ensures HandleExport(Toggle(NoExportOptions, k)) == Ok([KeyName(k)])
  {
    var o := Toggle(NoExportOptions, k);
    var ks := CheckedBoxes(o);
    assert forall j :: IsChecked(o, j) <==> j == k;
    assert k in ks;
    assert ks == [k];
    assert SelectedKeys(o) == [KeyName(k)];
  }
}

=== FILE: seqs.dfy ===
/** Sums and filters over sequences: the `reduce((s, r) => s + …, 0)` and
    `filter(…)` idioms the pages use on every table. */
module Seqs {

  /** `xs.reduce((s, x) => s + f(x), 0)`. */
  function Sum<T>(xs: seq<T>, f: T -> int): int
    decreases |xs|
  {
    if xs == [] then 0 else f(xs[0]) + Sum(xs[1..], f)
  }

  /** `a` occurs in `b` in order, possibly with gaps (greedy matching). */
  predicate IsSubsequence<T(==)>(a: seq<T>, b: seq<T>)
    decreases |b|
  {
    if a == [] then true
    else if b == [] then false
    else if a[0] == b[0] then IsSubsequence(a[1..], b[1..])
    else IsSubsequence(a, b[1..])
  }

  /** `xs.filter(keep)`: exactly the kept elements, each as often as in `xs`,
      in their original order. */
  function Filter<T(==,!new)>(xs: seq<T>, keep: T -> bool): (r: seq<T>)
    ensures |r| <= |xs|
    ensures forall x :: x in r <==> x in xs && keep(x)
    ensures forall x :: keep(x) ==> multiset(r)[x] == multiset(xs)[x]
    ensures IsSubsequence(r, xs)
    decreases |xs|
  {
    if xs == [] then []
    else
      var rest := Filter(xs[1..], keep);
      assert xs == [xs[0]] + xs[1..];
      if keep(xs[0]) then
        assert ([xs[0]] + rest)[1..] == rest;
        [xs[0]] + rest
      else rest
  }

  lemma {:induction false} SumAppend<T>(xs: seq<T>, ys: seq<T>, f: T -> int)
    ensures Sum(xs + ys, f) == Sum(xs, f) + Sum(ys, f)
    decreases |xs|
  {
    if xs == [] {
      assert xs + ys == ys;
    } else {
      assert (xs + ys)[1..] == xs[1..] + ys;
      SumAppend(xs[1..], ys, f);
    }
  }

  lemma {:induction false} SumPointwise<T>(xs: seq<T>, f: T -> int, g: T -> int)
    requires forall i :: 0 <= i < |xs| ==> f(xs[i]) == g(xs[i])
    ensures Sum(xs, f) == Sum(xs, g)
    decreases |xs|
  {
    if xs != [] {
      assert forall i :: 0 <= i < |xs[1..]| ==> xs[1..][i] == xs[i + 1];
      SumPointwise(xs[1..], f, g);
    }
  }

  /** Sums of pointwise sums add. */
  lemma {:induction false} SumAdd<T>(xs: seq<T>, f: T -> int, g: T -> int, h: T -> int)
    requires forall i :: 0 <= i < |xs| ==> h(xs[i]) == f(xs[i]) + g(xs[i])
    ensures Sum(xs, h) == Sum(xs, f) + Sum(xs, g)
    decreases |xs|
  {
    if xs != [] {
      assert forall i :: 0 <= i < |xs[1..]| ==> xs[1..][i] == xs[i + 1];
      SumAdd(xs[1..], f, g, h);
    }
  }

  lemma {:induction false} SumZero<T>(xs: seq<T>, f: T -> int)
    requires forall i :: 0 <= i < |xs| ==> f(xs[i]) == 0
    ensures Sum(xs, f) == 0
    decreases |xs|
  {
    if xs != [] {
      assert forall i :: 0 <= i < |xs[1..]| ==> xs[1..][i] == xs[i + 1];
      SumZero(xs[1..], f);
    }
  }

  /** Summing the filtered sequence is summing the whole one with the
      dropped elements counted as zero. */
  lemma {:induction false} SumFilter<T(!new)>(xs: seq<T>, keep: T -> bool, f: T -> int, g: T -> int)
    requires forall x :: g(x) == if keep(x) then f(x) else 0
    ensures Sum(Filter(xs, keep), f) == Sum(xs, g)
    decreases |xs|
  {
    if xs != [] {
      SumFilter(xs[1..], keep, f, g);
      if keep(xs[0]) {
        assert Filter(xs, keep) == [xs[0]] + Filter(xs[1..], keep);
        assert ([xs[0]] + Filter(xs[1..], keep))[1..] == Filter(xs[1..], keep);
      }
    }
  }

  /** A filter that keeps everything is the identity. */
  lemma {:induction false} FilterKeepAll<T(!new)>(xs: seq<T>, keep: T -> bool)
    requires forall i :: 0 <= i < |xs| ==> keep(xs[i])
    ensures Filter(xs, keep) == xs
    decreases |xs|
  {
    if xs != [] {
      assert forall i :: 0 <= i < |xs[1..]| ==> xs[1..][i] == xs[i + 1];
      FilterKeepAll(xs[1..], keep);
      assert xs == [xs[0]] + xs[1..];
    }
  }

  /** A filter that keeps nothing gives the empty sequence. */
  lemma {:induction false} FilterKeepNone<T(!new)>(xs: seq<T>, keep: T -> bool)
    requires forall i :: 0 <= i < |xs| ==> !keep(xs[i])
    ensures Filter(xs, keep) == []
    decreases |xs|
  {
    if xs != [] {
      assert forall i :: 0 <= i < |xs[1..]| ==> xs[1..][i] == xs[i + 1];
      FilterKeepNone(xs[1..], keep);
    }
  }

  /** The largest key, 0 for an empty sequence. */
  function MaxKey<T>(xs: seq<T>, key: T -> nat): (m: nat)
    ensures forall i :: 0 <= i < |xs| ==> key(xs[i]) <= m
    ensures xs == [] ==> m == 0
    ensures xs != [] ==> exists i :: 0 <= i < |xs| && key(xs[i]) == m
    decreases |xs|
  {
    if xs == [] then 0
    else
      var rest := MaxKey(xs[1..], key);
      assert forall i :: 1 <= i < |xs| ==> xs[i] == xs[1..][i - 1];
      if key(xs[0]) >= rest then key(xs[0]) else rest
  }

  /** Filtering keeps keys that were unique unique. */
  lemma {:induction false} FilterUniqueKeys<T(!new)>(xs: seq<T>, keep: T -> bool, key: T -> nat)
    requires forall i, j :: 0 <= i < j < |xs| ==> key(xs[i]) != key(xs[j])
    ensures forall i, j :: 0 <= i < j < |Filter(xs, keep)| ==> key(Filter(xs, keep)[i]) != key(Filter(xs, keep)[j])
    decreases |xs|
  {
    if xs != [] {
      var rest := Filter(xs[1..], keep);
      assert forall i, j :: 0 <= i < j < |xs[1..]| ==> xs[1..][i] == xs[i + 1] && xs[1..][j] == xs[j + 1];
      FilterUniqueKeys(xs[1..], keep, key);
      if keep(xs[0]) {
        var r := [xs[0]] + rest;
        forall j | 0 < j < |r|
          ensures key(r[0]) != key(r[j])
        {
          assert r[j] == rest[j - 1];
          assert rest[j - 1] in xs[1..];
          var k :| 0 <= k < |xs[1..]| && xs[1..][k] == rest[j - 1];
          assert xs[1..][k] == xs[k + 1];
        }
        assert Filter(xs, keep) == r;
      }
    }
  }

  lemma {:induction false} FilterAppend<T(!new)>(xs: seq<T>, ys: seq<T>, keep: T -> bool)
    ensures Filter(xs + ys, keep) == Filter(xs, keep) + Filter(ys, keep)
    decreases |xs|
  {
    if xs == [] {
      assert xs + ys == ys;
    } else {
      assert (xs + ys)[1..] == xs[1..] + ys;
      FilterAppend(xs[1..], ys, keep);
    }
  }
}

=== FILE: text.dfy ===
/** The string operations the pages rely on, written out: JavaScript's
    `toLowerCase`, `includes`, `startsWith`, `split("T")[0]`, `\s`,
    the `<`/`>=` string order, `join` and `String(n)` for natural numbers. */
module Text {
  import Seqs

  /** ECMAScript `\s`: the WhiteSpace and LineTerminator code points. */
  predicate IsWhitespace(c: char) {
    var n := c as int;
    || n == 0x09 || n == 0x0A || n == 0x0B || n == 0x0C || n == 0x0D || n == 0x20
    || n == 0xA0 || n == 0x1680 || (0x2000 <= n <= 0x200A)
    || n == 0x2028 || n == 0x2029 || n == 0x202F || n == 0x205F
    || n == 0x3000 || n == 0xFEFF
  }

  predicate HasWhitespace(s: string) {
    exists i :: 0 <= i < |s| && IsWhitespace(s[i])
  }

  /** Lower-casing of one character (the ASCII letters only). */
  function LowerChar(c: char): char {
    if 'A' <= c <= 'Z' then (c as int + 32) as char else c
  }

  function Lower(s: string): string {
    seq(|s|, i requires 0 <= i < |s| => LowerChar(s[i]))
  }

  /** `s.replace(/\s+/g, '')`: every whitespace character dropped. */
  function RemoveWhitespace(s: string): (r: string)
    ensures !HasWhitespace(r)
    ensures forall c :: c in r <==> c in s && !IsWhitespace(c)
    ensures forall c :: !IsWhitespace(c) ==> multiset(r)[c] == multiset(s)[c]
    ensures Seqs.IsSubsequence(r, s)
  {
    var r := Seqs.Filter(s, c => !IsWhitespace(c));
    assert forall i :: 0 <= i < |r| ==> r[i] in r;
    r
  }

  /** `sub` occurs in `s` starting at index `i`. */
  predicate OccursAt(s: string, sub: string, i: int) {
    0 <= i && i + |sub| <= |s| && s[i..i + |sub|] == sub
  }

  /** `s.includes(sub)`. */
  predicate Contains(s: string, sub: string)
    ensures Contains(s, sub) <==> exists i :: OccursAt(s, sub, i)
    decreases |s|
  {
    if sub <= s then
      assert OccursAt(s, sub, 0);
      true
    else if s == [] then
      assert forall i :: !OccursAt(s, sub, i);
      false
    else
      ShiftOccurrence(s, sub);
      Contains(s[1..], sub)
  }

  lemma ShiftOccurrence(s: string, sub: string)
    requires s != [] && !(sub <= s)
    ensures (exists i :: OccursAt(s, sub, i)) <==> (exists i :: OccursAt(s[1..], sub, i))
  {
    if i :| OccursAt(s, sub, i) {
      if i == 0 {
        assert false;
      } else {
        assert s[1..][i - 1..i - 1 + |sub|] == s[i..i + |sub|];
        assert OccursAt(s[1..], sub, i - 1);
      }
    }
    if i :| OccursAt(s[1..], sub, i) {
      assert s[1..][i..i + |sub|] == s[i + 1..i + 1 + |sub|];
      assert OccursAt(s, sub, i + 1);
    }
  }

  /** The case-insensitive search of the list pages:
      `name.toLowerCase().includes(query.toLowerCase())`. */
  predicate MatchesQuery(name: string, query: string) {
    Contains(Lower(name), Lower(query))
  }

  lemma {:induction false} EmptyQueryMatches(name: string)
    ensures MatchesQuery(name, "")
  {
    assert OccursAt(Lower(name), Lower(""), 0);
  }

  /** `s.split("T")[0]`: everything before the first `T`. */
  function BeforeT(s: string): (r: string)
    ensures r <= s
    ensures 'T' !in r
    ensures |r| < |s| ==> s[|r|] == 'T'
    decreases |s|
  {
    if s == [] || s[0] == 'T' then []
    else [s[0]] + BeforeT(s[1..])
  }

  /** JavaScript's `a <= b` on strings: lexicographic order on characters,
      a proper prefix coming first. */
  predicate LexLe(a: string, b: string)
    decreases |a|
  {
    if a == [] then true
    else if b == [] then false
    else if a[0] != b[0] then a[0] < b[0]
    else LexLe(a[1..], b[1..])
  }

  lemma {:induction false} LexLeReflexive(a: string)
    ensures LexLe(a, a)
    decreases |a|
  {
    if a != [] {
      LexLeReflexive(a[1..]);
    }
  }

  lemma {:induction false} LexLeAntisymmetric(a: string, b: string)
    requires LexLe(a, b) && LexLe(b, a)
    ensures a == b
    decreases |a|
  {
    if a != [] && b != [] {
      LexLeAntisymmetric(a[1..], b[1..]);
      assert a == [a[0]] + a[1..];
      assert b == [b[0]] + b[1..];
    }
  }

  lemma {:induction false} LexLeTransitive(a: string, b: string, c: string)
    requires LexLe(a, b) && LexLe(b, c)
    ensures LexLe(a, c)
    decreases |a|
  {
    if a != [] && b != [] && c != [] && a[0] == b[0] && b[0] == c[0] {
      LexLeTransitive(a[1..], b[1..], c[1..]);
    }
  }

  /** `xs.join(sep)`. */
  function Join(xs: seq<string>, sep: char): string
    decreases |xs|
  {
    if xs == [] then []
    else if |xs| == 1 then xs[0]
    else xs[0] + [sep] + Join(xs[1..], sep)
  }

  /** `s.split(sep)` for a one-character separator; the inverse of `Join`. */
  function Split(s: string, sep: char): (r: seq<string>)
    ensures |r| > 0
    decreases |s|
  {
    if s == [] then [[]]
    else
      var rest := Split(s[1..], sep);
      if s[0] == sep then [[]] + rest
      else [[s[0]] + rest[0]] + rest[1..]
  }

  lemma {:induction false} SplitNoSeparator(x: string, t: string, sep: char)
    requires sep !in x
    ensures Split(x + t, sep) == [x + Split(t, sep)[0]] + Split(t, sep)[1..]
    decreases |x|
  {
    if x != [] {
      var st := Split(t, sep);
      assert (x + t)[1..] == x[1..] + t;
      assert (x + t)[0] == x[0] && x[0] != sep;
      SplitNoSeparator(x[1..], t, sep);
      var rest := Split(x[1..] + t, sep);
      assert rest[0] == x[1..] + st[0] && rest[1..] == st[1..];
      assert Split(x + t, sep) == [[x[0]] + rest[0]] + rest[1..];
      assert [x[0]] + (x[1..] + st[0]) == x + st[0];
    } else {
      var r := Split(t, sep);
      assert x + t == t;
      assert x + r[0] == r[0];
      assert r == [r[0]] + r[1..];
    }
  }

  /** Splitting a join gives the parts back when no part holds the separator. */
  lemma {:induction false} SplitJoin(xs: seq<string>, sep: char)
    requires |xs| > 0
    requires forall i :: 0 <= i < |xs| ==> sep !in xs[i]
    ensures Split(Join(xs, sep), sep) == xs
    decreases |xs|
  {
    if |xs| == 1 {
      SplitNoSeparator(xs[0], [], sep);
      assert Split([], sep) == [[]];
      assert xs[0] + [] == xs[0];
      assert xs == [xs[0]];
    } else {
      var tail := Join(xs[1..], sep);
      SplitJoin(xs[1..], sep);
      SplitNoSeparator(xs[0], [sep] + tail, sep);
      assert xs[0] + [sep] + tail == xs[0] + ([sep] + tail);
      assert ([sep] + tail)[1..] == tail;
      assert Split([sep] + tail, sep) == [[]] + xs[1..];
      assert xs[0] + [] == xs[0];
      assert xs == [xs[0]] + xs[1..];
    }
  }

  // Decimal digits

  predicate IsDigit(c: char) {
    '0' <= c <= '9'
  }

  function DigitChar(d: int): char
    requires 0 <= d < 10
  {
    ('0' as int + d) as char
  }

  /** The value of a string of decimal digits, most significant first. */
  function DigitsValue(s: string): nat
    requires forall i :: 0 <= i < |s| ==> IsDigit(s[i])
    decreases |s|
  {
    if s == [] then 0
    else
      assert IsDigit(s[|s| - 1]);
      DigitsValue(s[..|s| - 1]) * 10 + (s[|s| - 1] as int - '0' as int)
  }

  /** `String(n)` for a natural number. */
  function NatToString(n: nat): (r: string)
    ensures |r| > 0
    ensures forall i :: 0 <= i < |r| ==> IsDigit(r[i])
    ensures DigitsValue(r) == n
    ensures r[0] == '0' <==> n == 0
    ensures |r| > 1 ==> r[0] != '0'
    decreases n
  {
    var last := [DigitChar(n % 10)];
    if n < 10 then last
    else
      var r := NatToString(n / 10) + last;
      assert r[..|r| - 1] == NatToString(n / 10);
      r
  }

  /** `n` written with exactly `width` digits, left-padded with zeros. */
  function PadDigits(n: nat, width: nat): (r: string)
    ensures |r| == width
    ensures forall i :: 0 <= i < |r| ==> IsDigit(r[i])
    decreases width
  {
    if width == 0 then []
    else PadDigits(n / 10, width - 1) + [DigitChar(n % 10)]
  }

  function Pow10(k: nat): nat
    ensures Pow10(k) >= 1
  {
    if k == 0 then 1 else 10 * Pow10(k - 1)
  }

  /** Padding loses nothing when the number fits in the width. */
  lemma {:induction false} PadDigitsValue(n: nat, width: nat)
    requires n < Pow10(width)
    ensures DigitsValue(PadDigits(n, width)) == n
    decreases width
  {
    if width > 0 {
      var r := PadDigits(n, width);
      assert r[..|r| - 1] == PadDigits(n / 10, width - 1);
      PadDigitsValue(n / 10, width - 1);
    }
  }
}

=== FILE: wrappers.dfy ===
/** Option and Result, the two failure-carrying shapes the ledger model uses. */
module Wrappers {

  /** An optional value: `None` stands for JavaScript's `undefined`, an
      empty form field, or a lookup that found nothing. */
  datatype Option<+T> = None | Some(value: T) {

    /** The value, or `default` when there is none. */
    function GetOr(default: T): T {
      match this
      case Some(v) => v
      case None => default
    }
  }

  /** The outcome of an operation that can be refused with an error. */
  datatype Result<+T, +E> = Ok(value: T) | Err(error: E)
}
